=== FILE: README.md ===
# Candidate-tracking service: the decision logic above the database

This project models, in Dafny, the core of a small candidate-tracking HTTP
service. Users register and log in and receive bearer tokens. Candidates, and
the skills attached to them, are created, read, updated and deleted. A
background job exports all candidates to a CSV report.

The model keeps the service's decisions and replaces its collaborators with
values:

- **Store.** The database is an immutable `Store.Db`. It holds one sequence of
  rows per table (users, candidates, skills, experience), in the order queries
  return them, plus the skills table's autoincrement counter. `Store.Valid`
  states the schema's constraints: the primary keys of all four tables,
  unique user emails, unique candidate emails and phones,
  the counter ahead of every skill id, and foreign keys that are null or name
  a stored candidate. Every writing operation is proved to keep it.
- **Errors.** A service call returns `Ok(value)` or `Err(HttpError)`. An
  `HttpError` carries the status, the detail and the headers. A refused call
  returns no new store, so a refusal leaves the store as it was.
- **Passwords.** bcrypt is `Bcrypt`. A digest records its salt and an image
  of the password under that salt. For a fixed salt, no two passwords share an
  image.
- **Tokens.** JWT is `Jwt`, a pure datatype round trip. The signature is an
  ideal MAC. It records the key, the algorithm and the exact payload it
  covers, so a token cannot be forged or moved to another payload.
- **Inputs passed as parameters.** The signing settings, the clock (integer
  seconds), the uuid4 drawn for a new row, the bcrypt salt and the uuid1
  integer in the report's file name are all parameters.

Modules follow the source files:

- `authentication.dfy`: `app/utils/authentication.py`
- `user_service.dfy`: `app/services/user.py`
- `candidate_service.dfy`, `skill_service.dfy`: `app/services/`
- `candidate_queries.dfy`, `skill_queries.dfy`: `app/db_queries/`
- `tasks.dfy`: `app/celery/tasks.py`

The supporting modules are `outcomes.dfy`, `seqs.dfy`, `store.dfy`,
`bcrypt.dfy` and `jwt.dfy`. `scenarios.dfy` holds properties of sequences of
calls.

Where the code departs from its own annotations or from what its names
suggest, the model follows the code:

- `varify_token` returns nothing on success, although it is annotated
  `-> bool`. `VerifyToken` returns `Ok(())`. The claims round trip is stated about `Jwt.Decode`.
- Deleting a candidate does not delete its skills and experience. The
  foreign-key columns declare `ondelete="CASCADE"`, but the ORM relationship
  `Candidate.skills` (and `Candidate.experience`) declares neither a delete
  cascade nor passive deletes. The ORM therefore sets the children's foreign
  key to null before it deletes the candidate, and the database cascade finds
  nothing to delete. `CandidateDelete` models that. "Removes exactly one
  record" holds for the candidates table.
- The login 401 carries no `WWW-Authenticate` header. Only the token
  rejections do.

## Model

| member | source | states |
|---|---|---|
| Bcrypt.Hash | app/utils/authentication.py:43-44 | the digest records the salt drawn for it and verifies the hashed password |
| Bcrypt.VerifyOnlyHashedSecret | app/utils/authentication.py:47-48 | a digest verifies its own password and no other one |
| Authentication.VerifyPassword | app/utils/authentication.py:47-48 | a password verifies against a digest exactly when the digest is that password's hash under the digest's own salt |
| Bcrypt.SaltsSeparateDigests | app/utils/authentication.py:43-44 | one password hashed under two salts gives two different digests, and both verify |
| Jwt.Encode | app/utils/authentication.py:20 | decoding the signed token with the same key and algorithm returns the payload exactly while it is unexpired; with any other key it fails as invalid |
| Jwt.Decode | app/utils/authentication.py:25 | decoding succeeds exactly for a parsable token with an allowed algorithm, a valid signature and an unexpired or absent `exp`, and returns its payload; it reports expiry exactly when the signature is good and `exp <= now` |
| Jwt.DecodeEncode | app/utils/authentication.py:19-25 | decoding an encoded payload with the same key and algorithm gives the payload back while unexpired, and the expiry error afterwards |
| Jwt.TamperedPayloadRejected | app/utils/authentication.py:33-36 | a signature moved onto a different payload is rejected as invalid |
| Jwt.ForeignKeyRejected | app/utils/authentication.py:33-36 | a token signed with another key is rejected as invalid, never as expired |
| Authentication.CreateAccessToken | app/utils/authentication.py:18-20 | the token's claims are the caller's claims plus `exp` = now + minutes·60, defaulting to 30 minutes; every other claim is kept |
| Authentication.VerifyToken | app/utils/authentication.py:23-40 | accepts exactly the tokens that decode and carry a truthy email; every rejection is a 401 with `WWW-Authenticate: Bearer`; the token-expired detail appears exactly on expiry, the generic detail otherwise |
| Authentication.IssuedTokenRoundTrip | app/utils/authentication.py:18-26 | an issued token decodes to the caller's claims plus `exp` before its expiry, and reports expiry from then on |
| Authentication.IssuedEmailTokenVerdict | app/utils/authentication.py:29-40 | a token issued for an email is accepted exactly while unexpired and the email is non-empty; an expired one gets the token-expired detail |
| Authentication.TokenWithoutEmailRejected | app/utils/authentication.py:37-40 | a validly signed, unexpired token without an email claim gets the generic 401 |
| Authentication.ForgedOrGarbledTokenRejected | app/utils/authentication.py:33-36 | a token with a bad signature or a malformed structure gets the generic 401 |
| Authentication.GetPasswordHash | app/utils/authentication.py:43-44 | the digest verifies the password and no other password |
| Authentication.AuthenticateUser | app/utils/authentication.py:47-48 | succeeds only if some user with that email has a digest the password verifies; with unique emails, exactly then |
| Authentication.UniqueEmailLookup | app/models/user.py:8 | with the unique email column, the user found by email is the only one with it |
| Store.Valid | app/models/candidate.py:10-12 | the schema's constraints: primary keys of users, candidates, skills and experience; unique user email; unique candidate email and phone; every skill id below the counter; every foreign key null or naming a stored candidate |
| Store.UserByEmail | app/db_queries/user_queries.py:17 | returns a user with that email, or none exactly when no user has it |
| Seqs.FilterCounts | app/models/candidate.py:14-15 | a relationship load keeps each passing row as many times as the table holds it and drops every other row |
| Store.SkillsOf | app/models/candidate.py:14 | `candidate.skills` holds exactly the skills whose foreign key names the candidate, each as often as it occurs in the table |
| Store.SkillsOfInTableOrder | app/models/candidate.py:14 | `candidate.skills` is in table order: a skill row added after the others comes after the candidate's earlier skills when its foreign key names the candidate, and is not listed otherwise |
| Store.ExperienceOf | app/models/candidate.py:15 | `candidate.experience` holds exactly the experience rows whose foreign key names the candidate, each as often as it occurs in the table |
| Store.ExperienceOfInTableOrder | app/models/candidate.py:15 | `candidate.experience` is in table order: an experience row added after the others comes after the candidate's earlier rows when its foreign key names the candidate, and is not listed otherwise |
| CandidateQueries.GetCandidateByEmail | app/db_queries/candidate_queries.py:20 | returns a candidate with that email, or none exactly when no candidate has it |
| CandidateQueries.GetCandidateByPhone | app/db_queries/candidate_queries.py:34 | returns a candidate with that phone, or none exactly when no candidate has it |
| CandidateQueries.GetCandidateById | app/db_queries/candidate_queries.py:63 | returns the candidate stored under that id, and it is the only one; none exactly when the id is absent |
| CandidateQueries.AddNewCandidate | app/db_queries/candidate_queries.py:48-49 | the candidate becomes present as the last row, every earlier row and every other table is unchanged, and the constraints are kept |
| CandidateQueries.AddNewCandidateKeepsValid | app/models/candidate.py:10-12 | adding an admissible candidate keeps the unique id, email and phone columns and the foreign keys valid |
| CandidateQueries.CandidateDelete | app/db_queries/candidate_queries.py:112-113 | removes exactly the rows with that candidate's id; in a valid store that is one row and the other candidates keep their order; skills and experience keep their ids and names and only lose a foreign key naming it; users are unchanged |
| CandidateQueries.CandidateDeleteKeepsValid | app/models/skills.py:12-13 | after a delete, all constraints still hold, and no skill or experience row names the deleted candidate |
| SkillQueries.AddNewSkill | app/db_queries/skill_queries.py:20-23 | stores a skill with the given name and candidate under an id no existing skill has, and returns that stored row |
| SkillQueries.GetSkillById | app/db_queries/skill_queries.py:37 | returns the skill stored under that id, and it is the only one; none exactly when absent |
| SkillQueries.GetListOfSkills | app/db_queries/skill_queries.py:51 | the list is the candidate's relationship list: exactly the skills that reference the candidate, with their multiplicity in the table |
| SkillQueries.SkillDelete | app/db_queries/skill_queries.py:66-69 | removes exactly the skill with that id; in a valid store that is one row and the other skills keep their order; no candidate, user or experience row changes |
| SkillQueries.SkillDeleteKeepsValid | app/db_queries/skill_queries.py:66-69 | removing skill rows keeps every constraint |
| SkillQueries.SkillUpdate | app/db_queries/skill_queries.py:87-95 | writes the body's only field, the name, onto the skill with that id; id and candidate are kept, other rows are unchanged, and the updated row is returned |
| SkillQueries.SkillUpdateKeepsValid | app/db_queries/skill_queries.py:89-92 | rewriting names in place keeps every constraint |
| SkillQueries.SkillUpdateIdempotent | app/db_queries/skill_queries.py:89-92 | applying the same update twice gives the same store and result as applying it once |
| UserService.Register | app/services/user.py:29-41 | a taken email gets 400 "email already taken."; otherwise exactly one user is appended, holding the password's digest, and the answer is a bearer token whose `email` claim is the registered email and whose `exp` is 30 minutes after issue, so it verifies exactly before then and only for a non-empty email; with the email free, an id collision on commit gets 500 |
| UserService.Login | app/services/user.py:60-70 | an unknown email and a wrong password fail with the same 401; in a valid store it succeeds exactly when a user with that email has a digest the password verifies, and answers a bearer token for that email that verifies exactly during the 30 minutes after issue (and only for a non-empty email) |
| UserService.RegisterThenLogin | app/tests/test_user_routes.py:25-42 | after registering, logging in with the same credentials succeeds, and with another password fails with the generic 401 |
| UserService.RegisterTwiceRefused | app/tests/test_user_routes.py:6-15 | registering the same email a second time is refused with 400 |
| CandidateService.CreateCandidate | app/services/candidate.py:25-43 | a used email gets the email-in-use 400, checked first; a used phone gets the phone-in-use 400; with email and phone free, an id collision on commit gets the creation-failed 400; otherwise exactly one candidate with the body's fields is added and existing ones are untouched |
| CandidateService.RetrieveCandidate | app/services/candidate.py:58-64 | returns the candidate with that id, or 404 "candidate not found." exactly when there is none |
| CandidateService.DeleteCandidate | app/services/candidate.py:107-114 | an absent id gets 404; otherwise exactly that candidate is removed (in a consistent store one row, with the other candidates in their order), every skill and experience row keeps its place, id and fields and only loses a foreign key naming it, users and the counter are unchanged, the constraints are kept, and the answer is "candidate deleted." |
| CandidateService.GenerateCandidatesReport | app/services/candidate.py:130-132 | enqueues one report job and answers the fixed "Generating report..." message |
| SkillService.CreateSkill | app/services/skill.py:35-46 | an absent candidate gets 404 "Candidate not found." and nothing is added; otherwise exactly one skill with the body's name and candidate is appended under a fresh id, the earlier skill rows and the users, candidates and experience tables are unchanged |
| SkillService.RetrieveSkill | app/services/skill.py:64-70 | returns the skill with that id, or 404 "Skill not found." exactly when there is none |
| SkillService.ListSkills | app/services/skill.py:91-98 | an absent candidate gets 404; otherwise the answer is exactly that candidate's skills, each with its multiplicity in the table |
| SkillService.DeleteSkill | app/services/skill.py:116-123 | an absent id gets 404; otherwise exactly that skill is removed (in a consistent store one row, with the other skills in their order), the other tables and the counter are unchanged, and the answer is "skill deleted." |
| SkillService.UpdateSkill | app/services/skill.py:141-148 | an absent id gets 404; otherwise the skill with that id is renamed in place and returned with its old id and candidate; every other skill row, the other tables and the counter are unchanged |
| SkillService.CreateSkillAppendsToList | app/services/skill.py:44-46 | a created skill is listed last among its candidate's skills, after the existing ones in their order |
| Tasks.DecimalString | app/celery/tasks.py:43 | `str(n)` is a non-empty string of decimal digits |
| Tasks.DecimalRoundTrip | app/celery/tasks.py:43 | reading the decimal string back gives the number |
| Tasks.DecimalStringLength | app/celery/tasks.py:43 | a number of at least 10^k has more than k digits |
| Tasks.FileName | app/celery/tasks.py:43 | the name is "candidates__", then one to eight decimal digits that begin the decimal form of the uuid1 integer, then ".csv" |
| Tasks.FileNameShape | app/celery/tasks.py:43 | a genuine uuid1 integer has more than eight digits, so its file name keeps exactly eight |
| Tasks.GenerateCandidatesCsvFile | app/celery/tasks.py:41-56 | the returned path is "reports/" followed by the file name, which starts with "candidates__"; the rows are the header, then one row per candidate in order with its id, name, email, skill names in order and experience |
| Tasks.ReportFollowsExecutionTime | app/celery/tasks.py:41-42 | a candidate added before the job runs adds one last row to the report, and earlier rows are unchanged |
| Scenarios.CreatesKeepContactsUnique | app/services/candidate.py:25-33 | after any sequence of creations from a valid store, no two candidates share an email or a phone |
| Scenarios.ReportAfterCreate | app/celery/tasks.py:52-54 | after a successful creation, the report has one more row, last, for the created candidate, and the earlier rows are unchanged; in a consistent store the new row's skills and experience cells are empty |
| Scenarios.ReportAfterSkillCreate | app/celery/tasks.py:53 | after a skill is created, its name is the last entry in its candidate's skills cell |
| Scenarios.CreateThenRetrieve | app/services/candidate.py:31-64 | retrieving a newly created candidate by its id returns exactly the created row |
| Scenarios.CreateThenDeleteRestores | app/services/candidate.py:107-114 | in a consistent store, deleting the candidate just created answers "candidate deleted." and gives back exactly the store from before the creation |
| Scenarios.CreateSkillThenDeleteRestores | app/services/skill.py:116-123 | deleting the skill just created answers "skill deleted." and restores every table; only the model's skill-id counter stays advanced |
| Scenarios.AddSkillThenDelete | app/db_queries/skill_queries.py:66-69 | the added skill gets the counter's old value as its id, it can be found by that id, and deleting it restores the skills table |
| Scenarios.UpdateThenRetrieve | app/services/skill.py:141-148 | in a consistent store, retrieving an updated skill by its id returns the updated row |

## Left out

- HTTP routing and framework wiring (`app/routes/`, `app/main.py`), including the per-request dependency `get_current_user`. That dependency is referenced by the skill routes but not defined in `app/utils/authentication.py`, so it is not part of this model.
- `authenticate_user` is imported by the user service but not defined in `app/utils/authentication.py`. `Authentication.AuthenticateUser` is a reconstruction: lookup by email, then `varify_password`.
- `Token` is imported by the user service from `app/schemas/user.py`, which defines only `UserSchema` and `UserReadSchema`. `UserService.BearerToken` is a reconstruction from how `register` and `login` build it: a token type of "bearer" and the access token.
- The constants module (`app/utils/constants.py`) is not part of this model. Its messages are kept as symbolic details.
- Sessions, commit, rollback and refresh are not modelled; a store is a value. Create-candidate's commit-failure branch is modelled for one failure only, a primary-key collision of the drawn uuid.
- CandidateService.CreateCandidate: does not model the 15-character limit of the phone column (`String(15)` in `app/models/candidate.py:12`). A backend that enforces column lengths, such as PostgreSQL, makes the commit raise on a longer phone and the service answer the creation-failed 400. SQLite, which the repository's tests use, ignores the limit, and so does the model, which then answers Ok.
- SkillQueries.AddNewSkill: skill ids come from a counter that never rewinds, like a PostgreSQL sequence. On SQLite, which the repository's tests use, `autoincrement=True` on an integer primary key emits no `AUTOINCREMENT`. A new row there gets the largest stored id plus one, so the id of a just-deleted last skill can be handed out again. The model's contracts promise only an id that no stored skill has, which holds on both backends. The exact value `nextSkillId` and the advanced counter in `Scenarios.CreateSkillThenDeleteRestores` and `Scenarios.AddSkillThenDelete` follow the sequence behaviour.
- Unique-constraint violations raised at commit by the query functions are excluded by `CandidateQueries.Admits`. The services check these constraints before inserting.
- A uuid4 collision at registration is not handled by the source. It is modelled as the framework's 500.
- `SkillQueries.SkillDelete`, `SkillQueries.SkillUpdate` and `CandidateQueries.CandidateDelete` require the row to exist. On a missing row the source raises from `db.delete(None)` or from `setattr` on `None`. Their service callers check first.
- `list_candidates`, `filter_candidates` and all pagination and filter behaviour are left out. These are wrappers over external libraries. `list_skills` and `get_paginated_list_of_skills` are modelled without paging.
- Real bcrypt and JWT cryptography are left out. The models cover neither one-wayness nor the work factor, nor bcrypt's 72-byte truncation.
- Jwt.Decode: the `iat`, `nbf`, `aud` and `iss` checks and leeway are not modelled. The model treats every `exp` that is not an integer as invalid (401). The real library converts `exp` with `int()` and catches only `ValueError`. So a numeric string is accepted, a float is accepted after truncation, a non-numeric string is invalid (401), and a `null` raises `TypeError`, which `varify_token` does not catch, so the answer is 500. Only a holder of the signing key can make such tokens.
- Wall-clock time is an integer count of seconds. The sub-second truncation of `exp` is therefore not modelled.
- `create_access_token` updates the caller's dictionary in place. In the model the caller's claims are an immutable value.
- Pydantic validation (e-mail syntax, required fields) is library behaviour and is left out. `EmailStr` also normalizes an address before the service sees it, lower-casing its domain, so `a@X.com` and `a@x.com` are one email to `register` and `create_candidate`. In the model `body.email` stands for the validated, normalized value.
- The Celery broker and the worker that consumes the queue are not modelled. The report queue is a counter of pending jobs.
- The report task's `os.makedirs`, the file write and `print` are left out. Rows are values. The CSV text of a cell is not reproduced: the skills list and the experience objects are written with Python's representation.
- The report file name is not claimed to be unique. Eight digits of a uuid1 integer can repeat.
- Each service call is modelled as one atomic step on the store. The service runs requests in parallel on one shared database, and interleavings change answers that the contracts state for a call running alone:
  - two registrations of one email can both pass the email check (`app/services/user.py:29`); the later commit then violates the unique email column and, uncaught, answers 500, where `UserService.Register` promises 400;
  - the same race in `create_candidate` (`app/services/candidate.py:25-29`) answers the creation-failed 400 instead of the email-in-use or phone-in-use detail;
  - `create_skill` can pass its candidate check (`app/services/skill.py:35-42`) while `delete_candidate` runs; on SQLite, which does not enforce foreign keys, the new skill then names a deleted candidate and `Store.Valid` no longer holds.
- Row order is the order of insertion. The database does not guarantee an order for queries without `ORDER BY`.
- The `create_at` and `update_at` timestamp columns are left out.

=== FILE: authentication.dfy ===
/** Token issue and check, and password hashing, over the abstract token and
    digest values. The signing key and algorithm, read from the environment
    once at start-up, are an explicit `Settings` value; the clock is an integer
    count of seconds passed in by the caller. */
module Authentication {
  import opened Outcomes
  import opened Jwt
  import Bcrypt
  import opened Store
  import opened Seqs

  datatype Settings = Settings(secretKey: string, algorithm: string)

  const DefaultExpiresMinutes := 30
  const SecondsPerMinute := 60
  const EmailClaim := "email"

  /** `create_access_token`: adds an `exp` claim `expiresMinutes` after `now`
      to the caller's claims and signs the result. */
  function CreateAccessToken(userData: Claims, now: int, settings: Settings,
                             expiresMinutes: int := DefaultExpiresMinutes): (t: Token)
    ensures t.Compact? && t.algorithm == settings.algorithm
    ensures t.payload.Keys == userData.Keys + {ExpClaim}
    ensures t.payload[ExpClaim] == Number(now + expiresMinutes * SecondsPerMinute)
    ensures forall k :: k in userData && k != ExpClaim ==> t.payload[k] == userData[k]
  {
    Encode(userData[ExpClaim := Number(now + expiresMinutes * SecondsPerMinute)],
           settings.secretKey, settings.algorithm)
  }

  /** Python truthiness of a claim value: `if not email` rejects a missing
      claim, `None`, the empty string and zero alike. */
  predicate Truthy(v: ClaimValue) {
    match v
    case Text(s) => s != ""
    case Number(n) => n != 0
    case Null => false
  }

  predicate HasEmail(payload: Claims) {
    EmailClaim in payload && Truthy(payload[EmailClaim])
  }

  /** `varify_token`: returns nothing when the token decodes under the settings
      at time `now` and carries an email; otherwise raises a 401 with the bearer
      challenge, whose detail is the token-expired message only when the
      signature is good but the expiry has been reached. */
  function VerifyToken(token: Token, now: int, settings: Settings): (r: Result<(), HttpError>)
    ensures r.Ok? <==>
      var d := Decode(token, settings.secretKey, [settings.algorithm], now);
      d.Ok? && HasEmail(d.value)
    ensures r.Err? ==> r.error.status == UnauthorizedStatus && r.error.headers == BearerChallenge
    ensures r.Err? ==> r.error.detail == TokenExpireMessage || r.error.detail == UnauthorizedMessage
    ensures r == Err(Challenge(TokenExpireMessage)) <==>
      Decode(token, settings.secretKey, [settings.algorithm], now) == Err(ExpiredSignature)
  {
    match Decode(token, settings.secretKey, [settings.algorithm], now)
    case Err(ExpiredSignature) => Err(Challenge(TokenExpireMessage))
    case Err(InvalidToken) => Err(Challenge(UnauthorizedMessage))
    case Ok(payload) =>
      if !HasEmail(payload) then Err(Challenge(UnauthorizedMessage)) else Ok(())
  }

  /** A token issued by `CreateAccessToken` decodes, under the same settings, to
      the caller's claims plus `exp` until its expiry and is expired from then on. */
  lemma IssuedTokenRoundTrip(userData: Claims, issuedAt: int, settings: Settings, expiresMinutes: int, now: int)
    ensures var t := CreateAccessToken(userData, issuedAt, settings, expiresMinutes);
            var exp := issuedAt + expiresMinutes * SecondsPerMinute;
            Decode(t, settings.secretKey, [settings.algorithm], now)
            == if now < exp then Ok(userData[ExpClaim := Number(exp)]) else Err(ExpiredSignature)
  {
    var exp := issuedAt + expiresMinutes * SecondsPerMinute;
    DecodeEncode(userData[ExpClaim := Number(exp)], settings.secretKey, settings.algorithm, now);
  }

  /** A token issued for an email is accepted exactly while it is unexpired, and
      only for a non-empty email; once expired it is rejected with the
      token-expired detail. */
  lemma IssuedEmailTokenVerdict(email: string, issuedAt: int, settings: Settings, expiresMinutes: int, now: int)
    ensures var t := CreateAccessToken(map[EmailClaim := Text(email)], issuedAt, settings, expiresMinutes);
            var exp := issuedAt + expiresMinutes * SecondsPerMinute;
            && (VerifyToken(t, now, settings).Ok? <==> now < exp && email != "")
            && (now >= exp ==> VerifyToken(t, now, settings) == Err(Challenge(TokenExpireMessage)))
            && (now < exp && email == "" ==> VerifyToken(t, now, settings) == Err(Challenge(UnauthorizedMessage)))
  {
    IssuedTokenRoundTrip(map[EmailClaim := Text(email)], issuedAt, settings, expiresMinutes, now);
  }

  /** A validly signed, unexpired token without an email claim is rejected with
      the generic detail. */
  lemma TokenWithoutEmailRejected(userData: Claims, issuedAt: int, settings: Settings, expiresMinutes: int, now: int)
    requires EmailClaim !in userData
    requires now < issuedAt + expiresMinutes * SecondsPerMinute
    ensures VerifyToken(CreateAccessToken(userData, issuedAt, settings, expiresMinutes), now, settings)
            == Err(Challenge(UnauthorizedMessage))
  {
    IssuedTokenRoundTrip(userData, issuedAt, settings, expiresMinutes, now);
  }

  /** A token with a bad signature or an unparsable structure is rejected with
      the generic detail, whatever its expiry. */
  lemma ForgedOrGarbledTokenRejected(payload: Claims, otherKey: string, text: string, settings: Settings, now: int)
    requires otherKey != settings.secretKey
    ensures VerifyToken(Encode(payload, otherKey, settings.algorithm), now, settings)
            == Err(Challenge(UnauthorizedMessage))
    ensures VerifyToken(Garbled(text), now, settings) == Err(Challenge(UnauthorizedMessage))
  {
    ForeignKeyRejected(payload, settings.secretKey, otherKey, settings.algorithm, now);
  }

  /** `get_password_hash`: a digest that verifies the password and no other secret. */
  function GetPasswordHash(password: string, salt: Bcrypt.Salt): (d: Bcrypt.Digest)
    ensures VerifyPassword(password, d)
    ensures forall other :: VerifyPassword(other, d) ==> other == password
  {
    HashAcceptsOnlyItsSecret(password, salt);
    Bcrypt.Hash(password, salt)
  }

  lemma HashAcceptsOnlyItsSecret(password: string, salt: Bcrypt.Salt)
    ensures forall other :: Bcrypt.Verify(other, Bcrypt.Hash(password, salt)) ==> other == password
  {
    forall other | Bcrypt.Verify(other, Bcrypt.Hash(password, salt))
      ensures other == password
    {
      Bcrypt.VerifyOnlyHashedSecret(password, other, salt);
    }
  }

  /** `varify_password`: the password verifies against a digest exactly when
      the digest is that password's hash under the digest's own salt. */
  function VerifyPassword(password: string, hashed: Bcrypt.Digest): (ok: bool)
    ensures ok <==> hashed == Bcrypt.Hash(password, hashed.salt)
  {
    Bcrypt.Verify(password, hashed)
  }

  /** `authenticate_user`, which the user service imports from this module but
      which the module does not define: modelled as the lookup of the user by
      email followed by `varify_password` against the stored digest. */
  function AuthenticateUser(db: Db, email: string, password: string): (ok: bool)
    ensures ok ==> exists u :: u in db.users && u.email == email && VerifyPassword(password, u.password)
    ensures Valid(db) ==>
      (ok <==> exists u :: u in db.users && u.email == email && VerifyPassword(password, u.password))
  {
    match UserByEmail(db, email)
    case None => false
    case Some(u) =>
      UniqueEmailLookup(db, email, u);
      VerifyPassword(password, u.password)
  }

  /** With unique emails, the user found by email is the only one with it. */
  lemma UniqueEmailLookup(db: Db, email: string, u: User)
    requires u in db.users && u.email == email
    ensures Valid(db) ==> forall v :: v in db.users && v.email == email ==> v == u
  {
    if Valid(db) {
      forall v | v in db.users && v.email == email
        ensures v == u
      {
        SameKeySameMember(db.users, UserEmailOf, u, v);
      }
    }
  }
}

=== FILE: bcrypt.dfy ===
/** The bcrypt scheme behind the password context. A digest records the salt
    drawn for it and an image of the secret under that salt. The image stands for
    bcrypt's compression as an ideal hash: for a fixed salt no two secrets share
    an image. One-wayness and the work factor cannot be stated about values and
    are not part of this model; the salt, drawn at random on every call, is a
    parameter. */
module Bcrypt {

  type Salt = nat

  datatype Digest = Digest(salt: Salt, image: seq<int>)

  /** Spreads the salts apart so that an image determines the salt and the secret. */
  const SaltStride := 0x11_0000

  function Image(salt: Salt, secret: string): seq<int> {
    seq(|secret|, i requires 0 <= i < |secret| => salt * SaltStride + secret[i] as int)
  }

  /** `hash`: a fresh digest of `secret` under `salt`, which its own secret verifies against. */
  function Hash(secret: string, salt: Salt): (d: Digest)
    ensures d.salt == salt
    ensures Verify(secret, d)
  {
    Digest(salt, Image(salt, secret))
  }

  /** `verify`: recomputes the image with the salt embedded in the digest and compares. */
  predicate Verify(secret: string, d: Digest) {
    Image(d.salt, secret) == d.image
  }

  /** A digest verifies its own secret and no other one. */
  lemma VerifyOnlyHashedSecret(secret: string, other: string, salt: Salt)
    ensures Verify(other, Hash(secret, salt)) <==> other == secret
  {
    if Verify(other, Hash(secret, salt)) {
      var a, b := Image(salt, other), Image(salt, secret);
      assert |other| == |a| == |b| == |secret|;
      forall i | 0 <= i < |secret|
        ensures other[i] == secret[i]
      {
        assert a[i] == b[i];
      }
    }
  }

  /** Hashing one secret under two different salts gives two different digests,
      so digests are never compared by plain equality. */
  lemma SaltsSeparateDigests(secret: string, s1: Salt, s2: Salt)
    requires s1 != s2
    ensures Hash(secret, s1) != Hash(secret, s2)
    ensures Verify(secret, Hash(secret, s1)) && Verify(secret, Hash(secret, s2))
  {
  }
}

=== FILE: candidate_queries.dfy ===
/** The candidate queries: lookups by email, phone and id, insertion and
    deletion. */
module CandidateQueries {
  import opened Outcomes
  import opened Seqs
  import opened Store

  /** `get_candidate_by_email`: a candidate with that email, or none when no
      candidate has it. */
  function GetCandidateByEmail(db: Db, email: string): (r: Option<Candidate>)
    ensures r.Some? ==> r.value in db.candidates && r.value.email == email
    ensures r.None? <==> forall c :: c in db.candidates ==> c.email != email
  {
    First(db.candidates, (c: Candidate) => c.email == email)
  }

  /** `get_candidate_by_phone`: a candidate with that phone, or none when no
      candidate has it. */
  function GetCandidateByPhone(db: Db, phone: string): (r: Option<Candidate>)
    ensures r.Some? ==> r.value in db.candidates && r.value.phone == phone
    ensures r.None? <==> forall c :: c in db.candidates ==> c.phone != phone
  {
    First(db.candidates, (c: Candidate) => c.phone == phone)
  }

  /** `get_candidate_by_id` (`Session.get`): the candidate stored under that
      primary key, or none. */
  function GetCandidateById(db: Db, id: Id): (r: Option<Candidate>)
    ensures r.Some? ==> r.value in db.candidates && r.value.id == id
    ensures r.None? <==> id !in CandidateIds(db)
    ensures Valid(db) && r.Some? ==> forall c :: c in db.candidates && c.id == id ==> c == r.value
  {
    var r := First(db.candidates, (c: Candidate) => c.id == id);
    assert Valid(db) && r.Some? ==> forall c :: c in db.candidates && c.id == id ==> c == r.value by {
      if Valid(db) && r.Some? {
        forall c | c in db.candidates && c.id == id
          ensures c == r.value
        {
          SameKeySameMember(db.candidates, CandidateIdOf, c, r.value);
        }
      }
    }
    r
  }

  /** The row satisfies the table's primary-key and unique constraints; a row
      that does not makes the commit raise, which the model does not represent. */
  predicate Admits(db: Db, c: Candidate) {
    forall x :: x in db.candidates ==> x.id != c.id && x.email != c.email && x.phone != c.phone
  }

  /** `add_new_candidate`: the candidate becomes present, as the last row, and
      nothing else changes. */
  function AddNewCandidate(db: Db, c: Candidate): (r: Db)
    requires Admits(db, c)
    ensures forall x :: x in r.candidates <==> x in db.candidates || x == c
    ensures |r.candidates| == |db.candidates| + 1 && r.candidates[|db.candidates|] == c
    ensures forall i :: 0 <= i < |db.candidates| ==> r.candidates[i] == db.candidates[i]
    ensures r.users == db.users && r.skills == db.skills && r.experience == db.experience
    ensures r.nextSkillId == db.nextSkillId
    ensures Valid(db) ==> Valid(r)
  {
    var r := db.(candidates := db.candidates + [c]);
    assert Valid(db) ==> Valid(r) by {
      if Valid(db) {
        AddNewCandidateKeepsValid(db, c, r);
      }
    }
    r
  }

  lemma AddNewCandidateKeepsValid(db: Db, c: Candidate, r: Db)
    requires Valid(db) && Admits(db, c)
    requires r == db.(candidates := db.candidates + [c])
    ensures Valid(r)
  {
    AppendKeepsKeysDistinct(db.candidates, c, CandidateIdOf);
    AppendKeepsKeysDistinct(db.candidates, c, CandidateEmailOf);
    AppendKeepsKeysDistinct(db.candidates, c, CandidatePhoneOf);
    assert CandidateIds(db) <= CandidateIds(r);
  }

  function OtherThan(id: Id): Candidate -> bool {
    (c: Candidate) => c.id != id
  }

  /** `candidate_delete`: removes exactly the given candidate. Its skills and
      experience are not deleted: their foreign key becomes null. */
  function CandidateDelete(db: Db, c: Candidate): (r: Db)
    requires c in db.candidates
    ensures forall x :: x in r.candidates <==> x in db.candidates && x.id != c.id
    ensures c.id !in CandidateIds(r)
    ensures Valid(db) ==> |r.candidates| == |db.candidates| - 1
    ensures Valid(db) ==>
      exists i :: 0 <= i < |db.candidates| && db.candidates[i] == c &&
        r.candidates == db.candidates[..i] + db.candidates[i + 1..]
    ensures |r.skills| == |db.skills|
    ensures forall i :: 0 <= i < |db.skills| ==>
      && r.skills[i].id == db.skills[i].id
      && r.skills[i].name == db.skills[i].name
      && r.skills[i].candidateId == (if db.skills[i].candidateId == Some(c.id) then None else db.skills[i].candidateId)
    ensures |r.experience| == |db.experience|
    ensures forall i :: 0 <= i < |db.experience| ==>
      r.experience[i] == db.experience[i].(candidateId := Detach(db.experience[i].candidateId, c.id))
    ensures r.users == db.users && r.nextSkillId == db.nextSkillId
  {
    var r := db.(
      candidates := Filter(db.candidates, OtherThan(c.id)),
      skills := seq(|db.skills|, i requires 0 <= i < |db.skills| =>
        db.skills[i].(candidateId := Detach(db.skills[i].candidateId, c.id))),
      experience := seq(|db.experience|, i requires 0 <= i < |db.experience| =>
        db.experience[i].(candidateId := Detach(db.experience[i].candidateId, c.id))));
    assert Valid(db) ==>
      && |r.candidates| == |db.candidates| - 1
      && exists i :: 0 <= i < |db.candidates| && db.candidates[i] == c &&
           r.candidates == db.candidates[..i] + db.candidates[i + 1..] by {
      if Valid(db) {
        CandidateDeleteKeepsOrder(db, c);
      }
    }
    r
  }

  /** The candidates left by a delete are the others, in their order. */
  lemma CandidateDeleteKeepsOrder(db: Db, c: Candidate)
    requires Valid(db) && c in db.candidates
    ensures var rest := Filter(db.candidates, OtherThan(c.id));
      && |rest| == |db.candidates| - 1
      && exists i :: 0 <= i < |db.candidates| && db.candidates[i] == c &&
           rest == db.candidates[..i] + db.candidates[i + 1..]
  {
    var i :| 0 <= i < |db.candidates| && db.candidates[i] == c;
    OthersDifferOnKey(db.candidates, CandidateIdOf, i);
    FilterRemovesAt(db.candidates, OtherThan(c.id), i);
  }

  /** Deleting a candidate keeps the schema's constraints: in particular no
      skill or experience row is left pointing at the deleted candidate. */
  lemma CandidateDeleteKeepsValid(db: Db, c: Candidate)
    requires Valid(db) && c in db.candidates
    ensures Valid(CandidateDelete(db, c))
  {
    var r := CandidateDelete(db, c);
    var keep := OtherThan(c.id);
    FilterKeepsKeysDistinct(db.candidates, keep, CandidateIdOf);
    FilterKeepsKeysDistinct(db.candidates, keep, CandidateEmailOf);
    FilterKeepsKeysDistinct(db.candidates, keep, CandidatePhoneOf);
    assert KeysDistinct(r.skills, SkillIdOf) by {
      forall i, j | 0 <= i < j < |r.skills|
        ensures SkillIdOf(r.skills[i]) != SkillIdOf(r.skills[j])
      {
        assert SkillIdOf(db.skills[i]) != SkillIdOf(db.skills[j]);
      }
    }
    forall s | s in r.skills
      ensures s.id < r.nextSkillId
      ensures s.candidateId.Some? ==> s.candidateId.value in CandidateIds(r)
    {
      var i :| 0 <= i < |r.skills| && r.skills[i] == s;
      assert db.skills[i] in db.skills;
      if s.candidateId.Some? {
        StillStored(db, c, s.candidateId.value);
      }
    }
    assert KeysDistinct(r.experience, ExperienceIdOf) by {
      forall i, j | 0 <= i < j < |r.experience|
        ensures ExperienceIdOf(r.experience[i]) != ExperienceIdOf(r.experience[j])
      {
        assert ExperienceIdOf(db.experience[i]) != ExperienceIdOf(db.experience[j]);
      }
    }
    forall e | e in r.experience && e.candidateId.Some?
      ensures e.candidateId.value in CandidateIds(r)
    {
      var i :| 0 <= i < |r.experience| && r.experience[i] == e;
      assert db.experience[i] in db.experience;
      StillStored(db, c, e.candidateId.value);
    }
  }

  /** A candidate other than the deleted one is still stored after the delete. */
  lemma StillStored(db: Db, c: Candidate, id: Id)
    requires c in db.candidates && id in CandidateIds(db) && id != c.id
    ensures id in CandidateIds(CandidateDelete(db, c))
  {
    CandidateIdsMembership(db, id);
    var y :| y in db.candidates && y.id == id;
    assert y in CandidateDelete(db, c).candidates;
  }
}

=== FILE: candidate_service.dfy ===
/** The candidate service: creation with duplicate checks, retrieval,
    deletion and the report dispatch. */
module CandidateService {
  import opened Outcomes
  import opened Store
  import opened CandidateQueries
  import opened Tasks

  /** The request body of creation. */
  datatype CandidateBody = CandidateBody(name: string, email: string, phone: string)

  const CandidateNotFoundDetail := Literal("candidate not found.")
  const CandidateDeletedMessage := "candidate deleted."
  const GeneratingReportMessage := "Generating report..."

  /** `create_candidate`: refuses an email already used by a candidate, then a
      phone already used; otherwise stores one candidate with the body's
      fields under the fresh uuid `id` and returns it. The uuid is a parameter;
      a collision is the one commit failure the model can represent, and takes
      the rollback branch. */
  function CreateCandidate(db: Db, body: CandidateBody, id: Id): (r: Result<(Db, Candidate), HttpError>)
    ensures (exists c :: c in db.candidates && c.email == body.email) ==>
      r == Err(BadRequest(EmailAlreadyInUseMessage))
    ensures ((forall c :: c in db.candidates ==> c.email != body.email)
             && (exists c :: c in db.candidates && c.phone == body.phone)) ==>
      r == Err(BadRequest(PhoneNumberAlreadyInUseMessage))
    ensures r.Err? ==> r.error.status == BadRequestStatus
    ensures (forall c :: c in db.candidates ==> c.email != body.email && c.phone != body.phone) && r.Err? ==>
      r.error == BadRequest(CandidateCreationFailedMessage)
    ensures r.Ok? <==>
      forall c :: c in db.candidates ==> c.email != body.email && c.phone != body.phone && c.id != id
    ensures r.Ok? ==>
      var (after, created) := r.value;
      && created == Candidate(id, body.name, body.email, body.phone)
      && |after.candidates| == |db.candidates| + 1
      && (forall x :: x in after.candidates <==> x in db.candidates || x == created)
      && (forall i :: 0 <= i < |db.candidates| ==> after.candidates[i] == db.candidates[i])
      && after.users == db.users && after.skills == db.skills && after.experience == db.experience
      && after.nextSkillId == db.nextSkillId
    ensures Valid(db) && r.Ok? ==> Valid(r.value.0)
  {
    if GetCandidateByEmail(db, body.email).Some? then
      Err(BadRequest(EmailAlreadyInUseMessage))
    else if GetCandidateByPhone(db, body.phone).Some? then
      Err(BadRequest(PhoneNumberAlreadyInUseMessage))
    else
      var candidate := Candidate(id, body.name, body.email, body.phone);
      if !Admits(db, candidate) then
        Err(BadRequest(CandidateCreationFailedMessage))
      else
        Ok((AddNewCandidate(db, candidate), candidate))
  }

  /** `retrieve_candidate`: the candidate with that id, or 404. */
  function RetrieveCandidate(db: Db, id: Id): (r: Result<Candidate, HttpError>)
    ensures r.Ok? ==> r.value in db.candidates && r.value.id == id
    ensures r.Err? <==> id !in CandidateIds(db)
    ensures r.Err? ==> r.error == NotFound(CandidateNotFoundDetail)
  {
    match GetCandidateById(db, id)
    case None => Err(NotFound(CandidateNotFoundDetail))
    case Some(c) => Ok(c)
  }

  /** `delete_candidate`: 404 for an absent id; otherwise removes exactly that
      candidate (detaching its skills and experience) and answers the
      deletion message. */
  function DeleteCandidate(db: Db, id: Id): (r: Result<(Db, map<string, string>), HttpError>)
    ensures r.Err? <==> id !in CandidateIds(db)
    ensures r.Err? ==> r.error == NotFound(CandidateNotFoundDetail)
    ensures r.Ok? ==>
      var (after, answer) := r.value;
      && answer == Message(CandidateDeletedMessage)
      && (forall x :: x in after.candidates <==> x in db.candidates && x.id != id)
      && id !in CandidateIds(after)
      && (Valid(db) ==> |after.candidates| == |db.candidates| - 1 && Valid(after))
      && (Valid(db) ==>
            exists i :: 0 <= i < |db.candidates| && db.candidates[i].id == id &&
              after.candidates == db.candidates[..i] + db.candidates[i + 1..])
      && |after.skills| == |db.skills|
      && (forall i :: 0 <= i < |db.skills| ==>
            && after.skills[i].id == db.skills[i].id
            && after.skills[i].name == db.skills[i].name
            && after.skills[i].candidateId == Detach(db.skills[i].candidateId, id))
      && |after.experience| == |db.experience|
      && (forall i :: 0 <= i < |db.experience| ==>
            after.experience[i] == db.experience[i].(candidateId := Detach(db.experience[i].candidateId, id)))
      && after.users == db.users && after.nextSkillId == db.nextSkillId
  {
    match GetCandidateById(db, id)
    case None => Err(NotFound(CandidateNotFoundDetail))
    case Some(c) =>
      assert Valid(db) ==> Valid(CandidateDelete(db, c)) by {
        if Valid(db) {
          CandidateDeleteKeepsValid(db, c);
        }
      }
      Ok((CandidateDelete(db, c), Message(CandidateDeletedMessage)))
  }

  /** `generate_candidates_report`: enqueues one report job and answers at
      once with the fixed acknowledgement; the store is not touched. */
  function GenerateCandidatesReport(queue: ReportQueue): (r: (ReportQueue, map<string, string>))
    ensures r.0.pending == queue.pending + 1
    ensures r.1 == Message(GeneratingReportMessage)
  {
    (ReportQueue(queue.pending + 1), Message(GeneratingReportMessage))
  }
}

=== FILE: jwt.dfy ===
/** The JSON Web Token library as a pure datatype round trip. A token is a
    signed payload of claims; the signature is an ideal message authentication
    code that records the key, the algorithm and exactly the payload it covers,
    so it can neither be forged without the key nor moved to another payload.
    Times are integer seconds. */
module Jwt {
  import opened Outcomes

  /** A claim value as it appears in a decoded payload. */
  datatype ClaimValue = Text(text: string) | Number(number: int) | Null

  type Claims = map<string, ClaimValue>

  datatype Signature = Signature(key: string, algorithm: string, payload: Claims)

  datatype Token =
    | Compact(algorithm: string, payload: Claims, signature: Signature)
      /** a string that does not parse as header.payload.signature */
    | Garbled(text: string)

  /** `ExpiredSignatureError`, and every other `InvalidTokenError`. */
  datatype DecodeError = ExpiredSignature | InvalidToken

  const ExpClaim := "exp"

  /** `encode`: signs `payload` with `key` under `algorithm`. Decoding with the
      same key and algorithm gives the payload back exactly while it is
      unexpired; decoding with any other key fails as invalid. */
  function Encode(payload: Claims, key: string, algorithm: string): (t: Token)
    ensures forall now :: Decode(t, key, [algorithm], now).Ok? <==> Unexpired(payload, now)
    ensures forall now :: Unexpired(payload, now) ==> Decode(t, key, [algorithm], now) == Ok(payload)
    ensures forall other, now :: other != key ==> Decode(t, other, [algorithm], now) == Err(InvalidToken)
  {
    Compact(algorithm, payload, Signature(key, algorithm, payload))
  }

  /** The payload carries no expiry, or one that lies after `now`. */
  predicate Unexpired(payload: Claims, now: int) {
    ExpClaim !in payload || (payload[ExpClaim].Number? && now < payload[ExpClaim].number)
  }

  /** `decode`: checks the algorithm against the allowed list, then the
      signature, then the `exp` claim, which must be an integer and lie after
      `now`. */
  function Decode(t: Token, key: string, algorithms: seq<string>, now: int): (r: Result<Claims, DecodeError>)
    ensures r.Ok? <==>
      t.Compact? && t.algorithm in algorithms
      && t.signature == Signature(key, t.algorithm, t.payload)
      && Unexpired(t.payload, now)
    ensures r.Ok? ==> r.value == t.payload
    ensures r == Err(ExpiredSignature) <==>
      t.Compact? && t.algorithm in algorithms
      && t.signature == Signature(key, t.algorithm, t.payload)
      && ExpClaim in t.payload && t.payload[ExpClaim].Number?
      && t.payload[ExpClaim].number <= now
  {
    match t
    case Garbled(_) => Err(InvalidToken)
    case Compact(alg, payload, sig) =>
      if alg !in algorithms then Err(InvalidToken)
      else if sig != Signature(key, alg, payload) then Err(InvalidToken)
      else if ExpClaim in payload && !payload[ExpClaim].Number? then Err(InvalidToken)
      else if ExpClaim in payload && payload[ExpClaim].number <= now then Err(ExpiredSignature)
      else Ok(payload)
  }

  /** Decoding what was encoded, with the same key and algorithm, gives the
      payload back while it is unexpired, and the expiry error once it is not. */
  lemma DecodeEncode(payload: Claims, key: string, algorithm: string, now: int)
    requires ExpClaim in payload ==> payload[ExpClaim].Number?
    ensures Unexpired(payload, now) ==>
      Decode(Encode(payload, key, algorithm), key, [algorithm], now) == Ok(payload)
    ensures !Unexpired(payload, now) ==>
      Decode(Encode(payload, key, algorithm), key, [algorithm], now) == Err(ExpiredSignature)
  {
  }

  /** A signature taken from one payload does not validate another one. */
  lemma TamperedPayloadRejected(payload: Claims, forged: Claims, key: string, algorithm: string, now: int)
    requires forged != payload
    ensures Decode(Compact(algorithm, forged, Encode(payload, key, algorithm).signature), key, [algorithm], now)
            == Err(InvalidToken)
  {
  }

  /** A token signed with another key is rejected as invalid, never as expired. */
  lemma ForeignKeyRejected(payload: Claims, key: string, other: string, algorithm: string, now: int)
    requires other != key
    ensures Decode(Encode(payload, other, algorithm), key, [algorithm], now) == Err(InvalidToken)
  {
  }
}

=== FILE: outcomes.dfy ===
/** Values shared by the whole model: an optional row (what a query's `.first()`
    or `Session.get` hands back), the outcome of a service call, and the HTTP
    errors the services raise. */
module Outcomes {

  datatype Option<+T> = None | Some(value: T)

  /** A service call either yields a value or raises an error. */
  datatype Result<+T, +E> = Ok(value: T) | Err(error: E)

  /** The `detail` of an HTTP error. The messages the services take from their
      constants module are kept symbolic (that module is not part of this model,
      so only their identity matters); messages written inline in the services
      carry their literal text. */
  datatype Detail =
    | TokenExpireMessage
    | UnauthorizedMessage
    | EmailAlreadyInUseMessage
    | PhoneNumberAlreadyInUseMessage
    | CandidateCreationFailedMessage
    | Literal(text: string)

  /** An `HTTPException`: status code, detail and response headers. */
  datatype HttpError = HttpError(status: int, detail: Detail, headers: map<string, string>)

  const BadRequestStatus := 400
  const UnauthorizedStatus := 401
  const NotFoundStatus := 404
  /** What the framework answers for an exception no handler catches. */
  const InternalServerErrorStatus := 500

  /** The challenge header every token rejection carries. */
  const BearerChallenge: map<string, string> := map["WWW-Authenticate" := "Bearer"]

  function BadRequest(d: Detail): HttpError {
    HttpError(BadRequestStatus, d, map[])
  }

  function NotFound(d: Detail): HttpError {
    HttpError(NotFoundStatus, d, map[])
  }

  /** A 401 without a challenge header, as the login path raises it. */
  function Unauthorized(d: Detail): HttpError {
    HttpError(UnauthorizedStatus, d, map[])
  }

  /** A 401 with the bearer challenge, as token verification raises it. */
  function Challenge(d: Detail): HttpError {
    HttpError(UnauthorizedStatus, d, BearerChallenge)
  }

  const InternalServerError := HttpError(InternalServerErrorStatus, Literal("Internal Server Error"), map[])

  /** A `{'message': ...}` response body. */
  function Message(text: string): map<string, string> {
    map["message" := text]
  }
}

=== FILE: scenarios.dfy ===
/** Properties of sequences of service calls: creations keep contacts
    unique, and the report reflects the store a job runs against. */
module Scenarios {
  import opened Outcomes
  import opened Seqs
  import opened Store
  import opened CandidateQueries
  import opened SkillQueries
  import opened CandidateService
  import opened SkillService
  import opened Tasks

  /** A creation request: the body and the uuid drawn for it. */
  datatype CreateRequest = CreateRequest(body: CandidateBody, id: Id)

  /** Applies the creations in order; a refused one leaves the store as it was. */
  function CreateAll(db: Db, requests: seq<CreateRequest>): Db
    decreases |requests|
  {
    if |requests| == 0 then db
    else
      var step := CreateCandidate(db, requests[0].body, requests[0].id);
      CreateAll(if step.Ok? then step.value.0 else db, requests[1..])
  }

  /** After any sequence of creations from a consistent store, no two
      candidates share an email or a phone. */
  lemma {:induction false} CreatesKeepContactsUnique(db: Db, requests: seq<CreateRequest>)
    requires Valid(db)
    ensures Valid(CreateAll(db, requests))
    ensures KeysDistinct(CreateAll(db, requests).candidates, CandidateEmailOf)
    ensures KeysDistinct(CreateAll(db, requests).candidates, CandidatePhoneOf)
    decreases |requests|
  {
    if |requests| > 0 {
      var step := CreateCandidate(db, requests[0].body, requests[0].id);
      CreatesKeepContactsUnique(if step.Ok? then step.value.0 else db, requests[1..]);
    }
  }

  /** A report job that runs after a creation has one more row, last, for the
      created candidate, with no skills yet; the earlier rows are unchanged. */
  lemma ReportAfterCreate(db: Db, body: CandidateBody, id: Id)
    requires CreateCandidate(db, body, id).Ok?
    ensures var (after, created) := CreateCandidate(db, body, id).value;
      && |ReportRows(after)| == |ReportRows(db)| + 1
      && ReportRows(after)[|db.candidates| + 1] == CandidateRow(after, created)
      && (forall i :: 0 <= i <= |db.candidates| ==> ReportRows(after)[i] == ReportRows(db)[i])
    ensures var (after, created) := CreateCandidate(db, body, id).value;
      Valid(db) ==> SkillNamesOf(after, created.id) == [] && ExperienceOf(after, created.id) == []
  {
    var (after, created) := CreateCandidate(db, body, id).value;
    assert after.candidates == db.candidates + [created];
    ReportFollowsExecutionTime(db, after, created);
    if Valid(db) {
      assert forall s :: s in after.skills ==> s.candidateId != Some(created.id);
      assert forall e :: e in after.experience ==> e.candidateId != Some(created.id);
    }
  }

  /** A report job that runs after a skill is created shows the skill's name
      last in its candidate's skills cell. */
  lemma ReportAfterSkillCreate(db: Db, body: SkillBody)
    requires CreateSkill(db, body).Ok?
    ensures var after := CreateSkill(db, body).value.0;
      SkillNamesOf(after, body.candidateId) == SkillNamesOf(db, body.candidateId) + [body.name]
  {
    var (after, created) := CreateSkill(db, body).value;
    CreateSkillAppendsToList(db, body);
    var before := SkillsOf(db, body.candidateId);
    assert SkillsOf(after, body.candidateId) == before + [created];
  }

  /** A created candidate is what retrieval by its id returns. */
  lemma {:induction false} CreateThenRetrieve(db: Db, body: CandidateBody, id: Id)
    requires CreateCandidate(db, body, id).Ok?
    ensures var (after, created) := CreateCandidate(db, body, id).value;
      RetrieveCandidate(after, id) == Ok(created)
  {
    var (after, created) := CreateCandidate(db, body, id).value;
    assert after.candidates == db.candidates + [created];
    var found := RetrieveCandidate(after, id);
    assert created in after.candidates;
    assert found.Ok?;
    assert found.value in db.candidates + [created];
  }

  /** Deleting the candidate just created gives back the store as it was
      before the creation: the new row is gone and no skill or experience
      row had a foreign key naming it. */
  lemma {:induction false} CreateThenDeleteRestores(db: Db, body: CandidateBody, id: Id)
    requires Valid(db) && CreateCandidate(db, body, id).Ok?
    ensures var after := CreateCandidate(db, body, id).value.0;
      DeleteCandidate(after, id) == Ok((db, Message(CandidateDeletedMessage)))
  {
    var (after, created) := CreateCandidate(db, body, id).value;
    assert after.candidates == db.candidates + [created];
    assert id in CandidateIds(after);
    var r := DeleteCandidate(after, id);
    var c := GetCandidateById(after, id).value;
    assert c == created by {
      assert c in db.candidates + [created];
    }
    var restored := CandidateDelete(after, created);
    assert restored.candidates == db.candidates by {
      var i :| 0 <= i < |after.candidates| && after.candidates[i] == created &&
        restored.candidates == after.candidates[..i] + after.candidates[i + 1..];
      SameKeySamePosition(after.candidates, CandidateIdOf, i, |db.candidates|);
      assert after.candidates[..i] == db.candidates;
    }
    assert restored.skills == db.skills by {
      forall i | 0 <= i < |db.skills|
        ensures restored.skills[i] == db.skills[i]
      {
        assert db.skills[i] in db.skills;
        assert db.skills[i].candidateId != Some(id);
      }
    }
    assert restored.experience == db.experience by {
      forall i | 0 <= i < |db.experience|
        ensures restored.experience[i] == db.experience[i]
      {
        assert db.experience[i] in db.experience;
      }
    }
    assert restored == db;
  }

  /** Deleting the skill just created gives back the store as it was, except
      that the model's skill-id counter stays advanced (the model allocates
      skill ids from a counter that does not rewind). */
  lemma CreateSkillThenDeleteRestores(db: Db, body: SkillBody)
    requires Valid(db) && CreateSkill(db, body).Ok?
    ensures var (after, created) := CreateSkill(db, body).value;
      && created.id == db.nextSkillId
      && DeleteSkill(after, created.id) == Ok((db.(nextSkillId := db.nextSkillId + 1), Message(SkillDeletedMessage)))
  {
    AddSkillThenDelete(db, body.name, body.candidateId);
  }

  /** The query-level half: removing the row `AddNewSkill` stored. */
  lemma {:induction false} AddSkillThenDelete(db: Db, name: string, candidateId: Id)
    requires Valid(db)
    ensures var (after, created) := AddNewSkill(db, name, candidateId);
      && created.id == db.nextSkillId
      && GetSkillById(after, created.id).Some?
      && SkillDelete(after, created.id) == db.(nextSkillId := db.nextSkillId + 1)
  {
    var (after, created) := AddNewSkill(db, name, candidateId);
    assert after.skills == db.skills + [created];
    assert GetSkillById(after, created.id).Some?;
    var keep := OtherSkillThan(created.id);
    FilterAppend(db.skills, [created], keep);
    forall j | 0 <= j < |db.skills|
      ensures keep(db.skills[j])
    {
      assert db.skills[j] in db.skills;
    }
    FilterKeepsAll(db.skills, keep);
    assert Filter([created], keep) == [];
    assert SkillDelete(after, created.id).skills == db.skills;
  }

  /** After an update, retrieving the skill returns the updated row. */
  lemma {:induction false} UpdateThenRetrieve(db: Db, patch: SkillPatch, id: int)
    requires Valid(db) && UpdateSkill(db, patch, id).Ok?
    ensures var (after, updated) := UpdateSkill(db, patch, id).value;
      RetrieveSkill(after, id) == Ok(updated)
  {
    var (after, updated) := UpdateSkill(db, patch, id).value;
    var found := RetrieveSkill(after, id);
    assert found.Ok?;
    SameKeySameMember(after.skills, SkillIdOf, found.value, updated);
  }
}

=== FILE: seqs.dfy ===
/** Sequence operations the store is built from: first match, filtering and
    distinct keys. A table is a sequence of rows in query order. */
module Seqs {
  import opened Outcomes

  /** Position of the first element satisfying `p`, if any. */
  function FirstIndex<T>(s: seq<T>, p: T -> bool): (r: Option<nat>)
    ensures r.Some? ==> r.value < |s| && p(s[r.value])
    ensures r.Some? ==> forall j :: 0 <= j < r.value ==> !p(s[j])
    ensures r.None? <==> forall j :: 0 <= j < |s| ==> !p(s[j])
    decreases |s|
  {
    if |s| == 0 then None
    else if p(s[0]) then Some(0)
    else match FirstIndex(s[1..], p)
      case None => None
      case Some(k) => Some(k + 1)
  }

  /** The first element satisfying `p`: what a filtered query's first row is. */
  function First<T(!new)>(s: seq<T>, p: T -> bool): (r: Option<T>)
    ensures r.Some? ==> r.value in s && p(r.value)
    ensures r.None? <==> forall x :: x in s ==> !p(x)
  {
    match FirstIndex(s, p)
    case None => None
    case Some(i) => Some(s[i])
  }

  /** The elements satisfying `p`, in their original order. */
  function Filter<T(!new)>(s: seq<T>, p: T -> bool): (r: seq<T>)
    ensures |r| <= |s|
    ensures forall x :: x in r <==> x in s && p(x)
    ensures (forall x :: x in s ==> !p(x)) ==> r == []
    decreases |s|
  {
    if |s| == 0 then []
    else if p(s[0]) then [s[0]] + Filter(s[1..], p)
    else Filter(s[1..], p)
  }

  /** Filtering keeps every element that satisfies `p` exactly as many times
      as it occurs, and drops every other one. */
  lemma {:induction false} FilterCounts<T(!new)>(s: seq<T>, p: T -> bool)
    ensures forall x {:trigger multiset(Filter(s, p))[x]} :: multiset(Filter(s, p))[x] == if p(x) then multiset(s)[x] else 0
    decreases |s|
  {
    if |s| > 0 {
      FilterCounts(s[1..], p);
      var rest := Filter(s[1..], p);
      assert s == [s[0]] + s[1..];
      assert multiset(s) == multiset{s[0]} + multiset(s[1..]);
      if p(s[0]) {
        assert multiset([s[0]] + rest) == multiset{s[0]} + multiset(rest);
      }
    }
  }

  /** Filtering distributes over concatenation, so it keeps the order of rows. */
  lemma {:induction false} FilterAppend<T(!new)>(a: seq<T>, b: seq<T>, p: T -> bool)
    ensures Filter(a + b, p) == Filter(a, p) + Filter(b, p)
    decreases |a|
  {
    if |a| == 0 {
      assert a + b == b;
    } else {
      assert (a + b)[1..] == a[1..] + b;
      FilterAppend(a[1..], b, p);
    }
  }

  /** When exactly one element fails `p`, filtering removes just that element
      and keeps the others in their order. */
  lemma FilterRemovesAt<T(!new)>(s: seq<T>, p: T -> bool, i: nat)
    requires i < |s| && !p(s[i])
    requires forall j :: 0 <= j < |s| && j != i ==> p(s[j])
    ensures Filter(s, p) == s[..i] + s[i + 1..]
  {
    var before, after := s[..i], s[i + 1..];
    assert s == before + ([s[i]] + after);
    forall j | 0 <= j < |before|
      ensures p(before[j])
    {
      assert before[j] == s[j];
    }
    forall j | 0 <= j < |after|
      ensures p(after[j])
    {
      assert after[j] == s[i + 1 + j];
    }
    FilterKeepsAll(before, p);
    FilterKeepsAll(after, p);
    assert ([s[i]] + after)[1..] == after;
    FilterAppend(before, [s[i]] + after, p);
  }

  /** Filtering by a predicate every element satisfies changes nothing. */
  lemma {:induction false} FilterKeepsAll<T(!new)>(s: seq<T>, p: T -> bool)
    requires forall j :: 0 <= j < |s| ==> p(s[j])
    ensures Filter(s, p) == s
    decreases |s|
  {
    if |s| > 0 {
      FilterKeepsAll(s[1..], p);
      assert [s[0]] + s[1..] == s;
    }
  }

  /** No two rows of `s` share a value of `key`: a unique column. */
  predicate KeysDistinct<T, K(==)>(s: seq<T>, key: T -> K) {
    forall i, j :: 0 <= i < j < |s| ==> key(s[i]) != key(s[j])
  }

  /** Two rows with the same value of a unique column are the same row. */
  lemma SameKeySamePosition<T, K>(s: seq<T>, key: T -> K, i: nat, j: nat)
    requires KeysDistinct(s, key)
    requires i < |s| && j < |s| && key(s[i]) == key(s[j])
    ensures i == j
  {
  }

  /** Every other row differs from row `i` on a unique column. */
  lemma OthersDifferOnKey<T, K>(s: seq<T>, key: T -> K, i: nat)
    requires KeysDistinct(s, key) && i < |s|
    ensures forall j :: 0 <= j < |s| && j != i ==> key(s[j]) != key(s[i])
  {
  }

  /** Two members of `s` that agree on a unique column are equal. */
  lemma SameKeySameMember<T, K>(s: seq<T>, key: T -> K, x: T, y: T)
    requires KeysDistinct(s, key)
    requires x in s && y in s && key(x) == key(y)
    ensures x == y
  {
    var i :| 0 <= i < |s| && s[i] == x;
    var j :| 0 <= j < |s| && s[j] == y;
    SameKeySamePosition(s, key, i, j);
  }

  /** Deleting rows keeps a unique column unique. */
  lemma {:induction false} FilterKeepsKeysDistinct<T(!new), K>(s: seq<T>, p: T -> bool, key: T -> K)
    requires KeysDistinct(s, key)
    ensures KeysDistinct(Filter(s, p), key)
    decreases |s|
  {
    if |s| > 0 {
      var rest := Filter(s[1..], p);
      assert KeysDistinct(s[1..], key) by {
        forall i, j | 0 <= i < j < |s[1..]|
          ensures key(s[1..][i]) != key(s[1..][j])
        {
          assert s[1..][i] == s[i + 1] && s[1..][j] == s[j + 1];
        }
      }
      FilterKeepsKeysDistinct(s[1..], p, key);
      if p(s[0]) {
        forall j | 0 <= j < |rest|
          ensures key(s[0]) != key(rest[j])
        {
          assert rest[j] in s[1..];
          var k :| 0 <= k < |s[1..]| && s[1..][k] == rest[j];
          assert s[k + 1] == rest[j];
        }
        var r := [s[0]] + rest;
        forall i, j | 0 <= i < j < |r|
          ensures key(r[i]) != key(r[j])
        {
          if i == 0 {
            assert r[j] == rest[j - 1];
          } else {
            assert r[i] == rest[i - 1] && r[j] == rest[j - 1];
          }
        }
      }
    }
  }

  /** Adding a row whose key no existing row has keeps a unique column unique. */
  lemma AppendKeepsKeysDistinct<T, K>(s: seq<T>, x: T, key: T -> K)
    requires KeysDistinct(s, key)
    requires forall y :: y in s ==> key(y) != key(x)
    ensures KeysDistinct(s + [x], key)
  {
    var r := s + [x];
    forall i, j | 0 <= i < j < |r|
      ensures key(r[i]) != key(r[j])
    {
      assert r[i] == s[i];
      if j < |s| {
        assert r[j] == s[j];
      } else {
        assert s[i] in s;
      }
    }
  }
}

=== FILE: skill_queries.dfy ===
/** The skill queries: insertion under the autoincrement key, lookup by id,
    the per-candidate list, deletion and the partial update. */
module SkillQueries {
  import opened Outcomes
  import opened Seqs
  import opened Store

  /** `add_new_skill`: stores a skill under the next autoincrement id and
      returns the very row it stored. */
  function AddNewSkill(db: Db, name: string, candidateId: Id): (r: (Db, Skill))
    ensures r.1.name == name && r.1.candidateId == Some(candidateId)
    ensures r.1 in r.0.skills
    ensures forall s :: s in r.0.skills <==> s in db.skills || s == r.1
    ensures |r.0.skills| == |db.skills| + 1 && r.0.skills[|db.skills|] == r.1
    ensures forall i :: 0 <= i < |db.skills| ==> r.0.skills[i] == db.skills[i]
    ensures Valid(db) ==> forall s :: s in db.skills ==> s.id != r.1.id
    ensures r.0.users == db.users && r.0.candidates == db.candidates && r.0.experience == db.experience
    ensures r.1.id == db.nextSkillId && r.0.nextSkillId == db.nextSkillId + 1
    ensures Valid(db) && candidateId in CandidateIds(db) ==> Valid(r.0)
  {
    var skill := Skill(db.nextSkillId, name, Some(candidateId));
    var r := db.(skills := db.skills + [skill], nextSkillId := db.nextSkillId + 1);
    assert Valid(db) && candidateId in CandidateIds(db) ==> Valid(r) by {
      if Valid(db) {
        AppendKeepsKeysDistinct(db.skills, skill, SkillIdOf);
      }
    }
    (r, skill)
  }

  /** `get_skill_by_id` (`Session.get`): the skill stored under that primary
      key, or none. */
  function GetSkillById(db: Db, id: int): (r: Option<Skill>)
    ensures r.Some? ==> r.value in db.skills && r.value.id == id
    ensures r.None? <==> forall s :: s in db.skills ==> s.id != id
    ensures Valid(db) && r.Some? ==> forall s :: s in db.skills && s.id == id ==> s == r.value
  {
    var r := First(db.skills, (s: Skill) => s.id == id);
    assert Valid(db) && r.Some? ==> forall s :: s in db.skills && s.id == id ==> s == r.value by {
      if Valid(db) && r.Some? {
        forall s | s in db.skills && s.id == id
          ensures s == r.value
        {
          SameKeySameMember(db.skills, SkillIdOf, s, r.value);
        }
      }
    }
    r
  }

  /** `get_paginated_list_of_skills`, without the paging: `candidate.skills`,
      exactly the skills that reference the candidate, in table order. */
  function GetListOfSkills(db: Db, candidate: Candidate): (r: seq<Skill>)
    ensures forall s :: s in r <==> s in db.skills && s.candidateId == Some(candidate.id)
    ensures forall s {:trigger multiset(r)[s]} ::
      multiset(r)[s] == if s.candidateId == Some(candidate.id) then multiset(db.skills)[s] else 0
    ensures r == SkillsOf(db, candidate.id)
    ensures |r| <= |db.skills|
  {
    SkillsOf(db, candidate.id)
  }

  function OtherSkillThan(id: int): Skill -> bool {
    (s: Skill) => s.id != id
  }

  /** `skill_delete`: removes exactly the skill with that id; the caller must
      have found it, since deleting a missing row raises. */
  function SkillDelete(db: Db, id: int): (r: Db)
    requires GetSkillById(db, id).Some?
    ensures forall s :: s in r.skills <==> s in db.skills && s.id != id
    ensures Valid(db) ==> |r.skills| == |db.skills| - 1
    ensures Valid(db) ==>
      exists i :: 0 <= i < |db.skills| && db.skills[i].id == id &&
        r.skills == db.skills[..i] + db.skills[i + 1..]
    ensures r.users == db.users && r.candidates == db.candidates && r.experience == db.experience
    ensures r.nextSkillId == db.nextSkillId
    ensures Valid(db) ==> Valid(r)
  {
    var r := db.(skills := Filter(db.skills, OtherSkillThan(id)));
    assert Valid(db) ==>
      exists i :: 0 <= i < |db.skills| && db.skills[i].id == id &&
        r.skills == db.skills[..i] + db.skills[i + 1..] by {
      if Valid(db) {
        var skill := GetSkillById(db, id).value;
        var i :| 0 <= i < |db.skills| && db.skills[i] == skill;
        OthersDifferOnKey(db.skills, SkillIdOf, i);
        FilterRemovesAt(db.skills, OtherSkillThan(id), i);
      }
    }
    assert Valid(db) ==> Valid(r) by {
      if Valid(db) {
        SkillDeleteKeepsValid(db, id, r);
      }
    }
    r
  }

  /** Removing skill rows keeps every constraint: the remaining ids stay
      distinct and below the counter, and no other table changes. */
  lemma SkillDeleteKeepsValid(db: Db, id: int, r: Db)
    requires Valid(db)
    requires r == db.(skills := Filter(db.skills, OtherSkillThan(id)))
    ensures Valid(r)
  {
    FilterKeepsKeysDistinct(db.skills, OtherSkillThan(id), SkillIdOf);
  }

  /** The request body of an update: the only field it carries is the name. */
  datatype SkillPatch = SkillPatch(name: string)

  /** The skill with the patch's fields written over it. */
  function Patched(s: Skill, patch: SkillPatch): Skill {
    s.(name := patch.name)
  }

  /** `skill_update`: overwrites the fields present in the body, which is only
      the name, on the skill with that id, and returns the updated row. Other
      rows, and the id and candidate of the updated one, are unchanged. */
  function SkillUpdate(db: Db, id: int, patch: SkillPatch): (r: (Db, Skill))
    requires GetSkillById(db, id).Some?
    ensures var before := GetSkillById(db, id).value;
      r.1.id == id && r.1.name == patch.name && r.1.candidateId == before.candidateId
    ensures r.1 in r.0.skills
    ensures |r.0.skills| == |db.skills|
    ensures forall i :: 0 <= i < |db.skills| && db.skills[i].id != id ==> r.0.skills[i] == db.skills[i]
    ensures forall i :: 0 <= i < |db.skills| && db.skills[i].id == id ==> r.0.skills[i] == Patched(db.skills[i], patch)
    ensures forall i :: 0 <= i < |db.skills| ==>
      r.0.skills[i].id == db.skills[i].id && r.0.skills[i].candidateId == db.skills[i].candidateId
    ensures r.0.users == db.users && r.0.candidates == db.candidates && r.0.experience == db.experience
    ensures r.0.nextSkillId == db.nextSkillId
    ensures Valid(db) ==> Valid(r.0)
  {
    var before := GetSkillById(db, id).value;
    var skills := seq(|db.skills|, i requires 0 <= i < |db.skills| =>
      if db.skills[i].id == id then Patched(db.skills[i], patch) else db.skills[i]);
    var r := db.(skills := skills);
    var i :| 0 <= i < |db.skills| && db.skills[i] == before;
    assert skills[i] == Patched(before, patch);
    assert Valid(db) ==> Valid(r) by {
      if Valid(db) {
        SkillUpdateKeepsValid(db, r);
      }
    }
    (r, Patched(before, patch))
  }

  /** Rewriting names in place keeps every constraint. */
  lemma SkillUpdateKeepsValid(db: Db, r: Db)
    requires Valid(db)
    requires r.users == db.users && r.candidates == db.candidates && r.experience == db.experience
    requires r.nextSkillId == db.nextSkillId && |r.skills| == |db.skills|
    requires forall i :: 0 <= i < |db.skills| ==>
      r.skills[i].id == db.skills[i].id && r.skills[i].candidateId == db.skills[i].candidateId
    ensures Valid(r)
  {
    assert KeysDistinct(r.skills, SkillIdOf) by {
      forall i, j | 0 <= i < j < |r.skills|
        ensures SkillIdOf(r.skills[i]) != SkillIdOf(r.skills[j])
      {
        assert SkillIdOf(db.skills[i]) != SkillIdOf(db.skills[j]);
      }
    }
    forall s | s in r.skills
      ensures s.id < r.nextSkillId
      ensures s.candidateId.Some? ==> s.candidateId.value in CandidateIds(r)
    {
      var i :| 0 <= i < |r.skills| && r.skills[i] == s;
      assert db.skills[i] in db.skills;
    }
  }

  /** Applying the same update twice leaves the store as applying it once. */
  lemma {:induction false} SkillUpdateIdempotent(db: Db, id: int, patch: SkillPatch)
    requires GetSkillById(db, id).Some?
    ensures GetSkillById(SkillUpdate(db, id, patch).0, id).Some?
    ensures var once := SkillUpdate(db, id, patch);
      SkillUpdate(once.0, id, patch) == once
  {
    var once := SkillUpdate(db, id, patch);
    assert once.1 in once.0.skills;
    var found := GetSkillById(once.0, id);
    assert found.Some?;
    var twice := SkillUpdate(once.0, id, patch);
    assert twice.0.skills == once.0.skills by {
      forall i | 0 <= i < |once.0.skills|
        ensures twice.0.skills[i] == once.0.skills[i]
      {
        if once.0.skills[i].id == id {
          assert once.0.skills[i].name == patch.name;
        }
      }
    }
    assert twice.0 == once.0;
    assert twice.1 == once.1 by {
      assert twice.1.id == id && twice.1.name == patch.name;
      assert twice.1.candidateId == found.value.candidateId;
      assert found.value in once.0.skills;
    }
  }
}

=== FILE: skill_service.dfy ===
/** The skill service: creation under an existing candidate, retrieval, the
    per-candidate list, deletion and update. */
module SkillService {
  import opened Outcomes
  import opened Seqs
  import opened Store
  import opened CandidateQueries
  import opened SkillQueries

  /** The request body of creation. */
  datatype SkillBody = SkillBody(name: string, candidateId: Id)

  const CandidateNotFoundDetail := Literal("Candidate not found.")
  const SkillNotFoundDetail := Literal("Skill not found.")
  const SkillDeletedMessage := "skill deleted."

  /** `create_skill`: 404 when the referenced candidate is absent, and then no
      skill is added; otherwise stores one skill with the body's name and
      candidate and returns it. */
  function CreateSkill(db: Db, body: SkillBody): (r: Result<(Db, Skill), HttpError>)
    ensures r.Err? <==> body.candidateId !in CandidateIds(db)
    ensures r.Err? ==> r.error == NotFound(CandidateNotFoundDetail)
    ensures r.Ok? ==>
      var (after, created) := r.value;
      && created.name == body.name && created.candidateId == Some(body.candidateId)
      && |after.skills| == |db.skills| + 1 && after.skills[|db.skills|] == created
      && (forall i :: 0 <= i < |db.skills| ==> after.skills[i] == db.skills[i])
      && (forall s :: s in after.skills <==> s in db.skills || s == created)
      && (Valid(db) ==> forall s :: s in db.skills ==> s.id != created.id)
      && after.candidates == db.candidates && after.users == db.users && after.experience == db.experience
      && created.id == db.nextSkillId && after.nextSkillId == db.nextSkillId + 1
    ensures Valid(db) && r.Ok? ==> Valid(r.value.0)
  {
    match GetCandidateById(db, body.candidateId)
    case None => Err(NotFound(CandidateNotFoundDetail))
    case Some(_) => Ok(AddNewSkill(db, body.name, body.candidateId))
  }

  /** `retrieve_skill`: the skill with that id, or 404. */
  function RetrieveSkill(db: Db, id: int): (r: Result<Skill, HttpError>)
    ensures r.Ok? ==> r.value in db.skills && r.value.id == id
    ensures r.Err? <==> forall s :: s in db.skills ==> s.id != id
    ensures r.Err? ==> r.error == NotFound(SkillNotFoundDetail)
  {
    match GetSkillById(db, id)
    case None => Err(NotFound(SkillNotFoundDetail))
    case Some(s) => Ok(s)
  }

  /** `list_skills`, without the paging: 404 when the candidate is absent;
      otherwise exactly the skills that reference it. */
  function ListSkills(db: Db, candidateId: Id): (r: Result<seq<Skill>, HttpError>)
    ensures r.Err? <==> candidateId !in CandidateIds(db)
    ensures r.Err? ==> r.error == NotFound(CandidateNotFoundDetail)
    ensures r.Ok? ==> forall s :: s in r.value <==> s in db.skills && s.candidateId == Some(candidateId)
    ensures r.Ok? ==> forall s {:trigger multiset(r.value)[s]} ::
      multiset(r.value)[s] == if s.candidateId == Some(candidateId) then multiset(db.skills)[s] else 0
    ensures r.Ok? ==> r.value == SkillsOf(db, candidateId)
  {
    match GetCandidateById(db, candidateId)
    case None => Err(NotFound(CandidateNotFoundDetail))
    case Some(c) => Ok(GetListOfSkills(db, c))
  }

  /** `delete_skill`: 404 for an absent id; otherwise removes exactly that
      skill and answers the deletion message. */
  function DeleteSkill(db: Db, id: int): (r: Result<(Db, map<string, string>), HttpError>)
    ensures r.Err? <==> forall s :: s in db.skills ==> s.id != id
    ensures r.Err? ==> r.error == NotFound(SkillNotFoundDetail)
    ensures r.Ok? ==>
      var (after, answer) := r.value;
      && answer == Message(SkillDeletedMessage)
      && (forall s :: s in after.skills <==> s in db.skills && s.id != id)
      && (Valid(db) ==> |after.skills| == |db.skills| - 1)
      && (Valid(db) ==>
            exists i :: 0 <= i < |db.skills| && db.skills[i].id == id &&
              after.skills == db.skills[..i] + db.skills[i + 1..])
      && after.candidates == db.candidates && after.users == db.users && after.experience == db.experience
      && after.nextSkillId == db.nextSkillId
    ensures Valid(db) && r.Ok? ==> Valid(r.value.0)
  {
    if GetSkillById(db, id).None? then
      Err(NotFound(SkillNotFoundDetail))
    else
      Ok((SkillDelete(db, id), Message(SkillDeletedMessage)))
  }

  /** `update_skill`: 404 for an absent id; otherwise renames that skill and
      returns it, with its id and candidate unchanged. */
  function UpdateSkill(db: Db, patch: SkillPatch, id: int): (r: Result<(Db, Skill), HttpError>)
    ensures r.Err? <==> forall s :: s in db.skills ==> s.id != id
    ensures r.Err? ==> r.error == NotFound(SkillNotFoundDetail)
    ensures r.Ok? ==>
      var (after, updated) := r.value;
      && updated.id == id && updated.name == patch.name && updated in after.skills
      && (exists s :: s in db.skills && s.id == id && updated.candidateId == s.candidateId)
      && |after.skills| == |db.skills|
      && (forall i :: 0 <= i < |db.skills| && db.skills[i].id != id ==> after.skills[i] == db.skills[i])
      && (forall i :: 0 <= i < |db.skills| ==>
            && after.skills[i].id == db.skills[i].id
            && after.skills[i].candidateId == db.skills[i].candidateId
            && (db.skills[i].id == id ==> after.skills[i].name == patch.name))
      && after.candidates == db.candidates && after.users == db.users && after.experience == db.experience
      && after.nextSkillId == db.nextSkillId
    ensures Valid(db) && r.Ok? ==> Valid(r.value.0)
  {
    if GetSkillById(db, id).None? then
      Err(NotFound(SkillNotFoundDetail))
    else
      Ok(SkillUpdate(db, id, patch))
  }

  /** A created skill is listed last among its candidate's skills, after
      the ones it already had. */
  lemma CreateSkillAppendsToList(db: Db, body: SkillBody)
    requires CreateSkill(db, body).Ok?
    ensures var (after, created) := CreateSkill(db, body).value;
      SkillsOf(after, body.candidateId) == SkillsOf(db, body.candidateId) + [created]
  {
    var (after, created) := CreateSkill(db, body).value;
    var p := (s: Skill) => s.candidateId == Some(body.candidateId);
    assert after.skills == db.skills + [created];
    FilterAppend(db.skills, [created], p);
    assert Filter([created], p) == [created];
  }
}

=== FILE: store.dfy ===
/** The database as an immutable value: one sequence of rows per table, in the
    order the queries return them, plus the next value of the skills table's
    autoincrement key. The users and candidates tables are keyed by uuid4
    strings; skills and experience by integers. */
module Store {
  import opened Outcomes
  import opened Seqs
  import Bcrypt

  /** A uuid4 string primary key. */
  type Id = string

  /** A user row: the password column holds a digest, never the secret itself. */
  datatype User = User(id: Id, email: string, password: Bcrypt.Digest)

  datatype Candidate = Candidate(id: Id, name: string, email: string, phone: string)

  /** A skill row; its candidate reference is a nullable foreign key. */
  datatype Skill = Skill(id: int, name: string, candidateId: Option<Id>)

  /** An experience row (no operation of the model writes one; candidate
      deletion detaches them and the report prints them). Dates are day numbers. */
  datatype Experience = Experience(
    id: int, jobTitle: string, company: string,
    startDate: int, endDate: Option<int>, candidateId: Option<Id>)

  datatype Db = Db(
    users: seq<User>,
    candidates: seq<Candidate>,
    skills: seq<Skill>,
    experience: seq<Experience>,
    nextSkillId: int)

  function UserIdOf(u: User): Id { u.id }
  function UserEmailOf(u: User): string { u.email }
  function CandidateIdOf(c: Candidate): Id { c.id }
  function CandidateEmailOf(c: Candidate): string { c.email }
  function CandidatePhoneOf(c: Candidate): string { c.phone }
  function SkillIdOf(s: Skill): int { s.id }
  function ExperienceIdOf(e: Experience): int { e.id }

  function CandidateIds(db: Db): set<Id> {
    set c | c in db.candidates :: c.id
  }

  /** The constraints the schema declares: primary keys, the unique email and
      phone columns, the autoincrement counter ahead of every skill id, and
      foreign keys that are null or name a stored candidate. */
  predicate Valid(db: Db) {
    && KeysDistinct(db.users, UserIdOf)
    && KeysDistinct(db.users, UserEmailOf)
    && KeysDistinct(db.candidates, CandidateIdOf)
    && KeysDistinct(db.candidates, CandidateEmailOf)
    && KeysDistinct(db.candidates, CandidatePhoneOf)
    && KeysDistinct(db.skills, SkillIdOf)
    && KeysDistinct(db.experience, ExperienceIdOf)
    && (forall s :: s in db.skills ==> s.id < db.nextSkillId)
    && (forall s :: s in db.skills && s.candidateId.Some? ==> s.candidateId.value in CandidateIds(db))
    && (forall e :: e in db.experience && e.candidateId.Some? ==> e.candidateId.value in CandidateIds(db))
  }

  /** The user lookup by email: the first user row whose email column equals
      the given one, if any. */
  function UserByEmail(db: Db, email: string): (r: Option<User>)
    ensures r.Some? ==> r.value in db.users && r.value.email == email
    ensures r.None? <==> forall u :: u in db.users ==> u.email != email
  {
    First(db.users, (u: User) => u.email == email)
  }

  /** The `Candidate.skills` relationship: the skills whose foreign key names
      the candidate, in table order. */
  function SkillsOf(db: Db, candidateId: Id): (r: seq<Skill>)
    ensures forall s :: s in r <==> s in db.skills && s.candidateId == Some(candidateId)
    ensures forall s {:trigger multiset(r)[s]} :: multiset(r)[s] == if s.candidateId == Some(candidateId) then multiset(db.skills)[s] else 0
  {
    FilterCounts(db.skills, SkillOwnedBy(candidateId));
    Filter(db.skills, SkillOwnedBy(candidateId))
  }

  /** Whether a skill row's foreign key names the candidate. */
  function SkillOwnedBy(candidateId: Id): Skill -> bool {
    (s: Skill) => s.candidateId == Some(candidateId)
  }

  /** `candidate.skills` lists rows in table order: a row added after the
      others comes after the candidate's earlier skills, if it is theirs. */
  lemma SkillsOfInTableOrder(db: Db, rows: seq<Skill>, s: Skill, candidateId: Id)
    ensures SkillsOf(db.(skills := rows + [s]), candidateId) ==
      SkillsOf(db.(skills := rows), candidateId) + (if s.candidateId == Some(candidateId) then [s] else [])
  {
    FilterAppend(rows, [s], SkillOwnedBy(candidateId));
  }

  /** The `Candidate.experience` relationship. */
  function ExperienceOf(db: Db, candidateId: Id): (r: seq<Experience>)
    ensures forall e :: e in r <==> e in db.experience && e.candidateId == Some(candidateId)
    ensures forall e {:trigger multiset(r)[e]} :: multiset(r)[e] == if e.candidateId == Some(candidateId) then multiset(db.experience)[e] else 0
  {
    FilterCounts(db.experience, ExperienceOwnedBy(candidateId));
    Filter(db.experience, ExperienceOwnedBy(candidateId))
  }

  /** Whether an experience row's foreign key names the candidate. */
  function ExperienceOwnedBy(candidateId: Id): Experience -> bool {
    (e: Experience) => e.candidateId == Some(candidateId)
  }

  /** `candidate.experience` lists rows in table order, as `SkillsOfInTableOrder`
      states for skills. */
  lemma ExperienceOfInTableOrder(db: Db, rows: seq<Experience>, e: Experience, candidateId: Id)
    ensures ExperienceOf(db.(experience := rows + [e]), candidateId) ==
      ExperienceOf(db.(experience := rows), candidateId) + (if e.candidateId == Some(candidateId) then [e] else [])
  {
    FilterAppend(rows, [e], ExperienceOwnedBy(candidateId));
  }

  /** A foreign key after its candidate is deleted: the ORM sets it to null. */
  function Detach(fk: Option<Id>, deleted: Id): Option<Id> {
    if fk == Some(deleted) then None else fk
  }

  /** A candidate id is stored exactly when some candidate row carries it. */
  lemma CandidateIdsMembership(db: Db, id: Id)
    ensures id in CandidateIds(db) <==> exists c :: c in db.candidates && c.id == id
  {
  }
}

=== FILE: tasks.dfy ===
/** The report task: the rows it writes and the path it writes them to. The
    file write itself, the directory creation and the broker are not part of
    the model; the task runs against whatever store exists when it executes. */
module Tasks {
  import opened Store

  const OutputDir := "reports"
  const FileNamePrefix := "candidates__"
  const FileNameSuffix := ".csv"
  /** How many leading decimal digits of the uuid1 integer the name keeps. */
  const UuidDigits := 8

  /** A CSV cell: a plain field, the list of a candidate's skill names, or its
      experience records (written out with their Python representation, which
      the model does not reproduce). */
  datatype Cell = Field(text: string) | SkillNames(names: seq<string>) | Records(experience: seq<Experience>)

  type Row = seq<Cell>

  const Header: Row := [Field("id"), Field("name"), Field("email"), Field("skills"), Field("experience")]

  /** The names of the candidate's skills, in relationship order. */
  function SkillNamesOf(db: Db, candidateId: Id): seq<string> {
    var skills := SkillsOf(db, candidateId);
    seq(|skills|, i requires 0 <= i < |skills| => skills[i].name)
  }

  function CandidateRow(db: Db, c: Candidate): Row {
    [Field(c.id), Field(c.name), Field(c.email), SkillNames(SkillNamesOf(db, c.id)), Records(ExperienceOf(db, c.id))]
  }

  /** The whole report as a reference definition: the header, then one row
      per candidate in query order. */
  function ReportRows(db: Db): seq<Row> {
    [Header] + seq(|db.candidates|, i requires 0 <= i < |db.candidates| => CandidateRow(db, db.candidates[i]))
  }

  function DigitChar(d: nat): char
    requires d < 10
  {
    ('0' as int + d) as char
  }

  function DigitValue(c: char): nat
    requires IsDigit(c)
  {
    c as int - '0' as int
  }

  predicate IsDigit(c: char) {
    '0' <= c <= '9'
  }

  /** The decimal form of a natural number, without leading zeros. */
  function DecimalString(n: nat): (s: string)
    ensures |s| >= 1
    ensures forall i :: 0 <= i < |s| ==> IsDigit(s[i])
    decreases n
  {
    if n < 10 then [DigitChar(n)] else DecimalString(n / 10) + [DigitChar(n % 10)]
  }

  /** The value of a string of decimal digits: the partner of `DecimalString`. */
  function ParseDecimal(s: string): nat
    requires forall i :: 0 <= i < |s| ==> IsDigit(s[i])
  {
    if |s| == 0 then 0
    else ParseDecimal(s[..|s| - 1]) * 10 + DigitValue(s[|s| - 1])
  }

  /** Printing a number in decimal and reading it back gives the number. */
  lemma {:induction false} DecimalRoundTrip(n: nat)
    ensures ParseDecimal(DecimalString(n)) == n
    decreases n
  {
    var s := DecimalString(n);
    if n >= 10 {
      DecimalRoundTrip(n / 10);
      assert s[..|s| - 1] == DecimalString(n / 10);
    }
  }

  /** A number of at least ten to the `k` has more than `k` digits. */
  lemma {:induction false} DecimalStringLength(n: nat, k: nat, p: nat)
    requires p == Pow10(k) && n >= p
    ensures |DecimalString(n)| > k
    decreases k
  {
    if k > 0 {
      DecimalStringLength(n / 10, k - 1, Pow10(k - 1));
    }
  }

  function Pow10(k: nat): (p: nat)
    ensures p >= 1
  {
    if k == 0 then 1 else 10 * Pow10(k - 1)
  }

  /** Bit 76 of a uuid: the low bit of the version field. */
  const VersionUnit: nat := 0x1000_0000_0000_0000_0000
  const UuidBound: nat := 0x1_0000_0000_0000_0000_0000_0000_0000_0000

  /** The integer value of a version-1 uuid: below 2^128, version field 1. */
  predicate IsUuid1Int(n: nat) {
    n < UuidBound && (n / VersionUnit) % 16 == 1
  }

  function Take(s: string, k: nat): (r: string)
    ensures |r| == if |s| <= k then |s| else k
    ensures forall i :: 0 <= i < |r| ==> r[i] == s[i]
  {
    if |s| <= k then s else s[..k]
  }

  /** The report's file name: the fixed prefix, at most the first eight
      decimal digits of the uuid1 integer, and the CSV suffix. */
  function FileName(uuidInt: nat): (name: string)
    ensures |FileNamePrefix| + 1 + |FileNameSuffix| <= |name| <= |FileNamePrefix| + UuidDigits + |FileNameSuffix|
    ensures name[..|FileNamePrefix|] == FileNamePrefix
    ensures name[|name| - |FileNameSuffix|..] == FileNameSuffix
    ensures name[|FileNamePrefix|..|name| - |FileNameSuffix|] <= DecimalString(uuidInt)
    ensures forall i :: |FileNamePrefix| <= i < |name| - |FileNameSuffix| ==> IsDigit(name[i])
  {
    var digits := DecimalString(uuidInt);
    var middle := Take(digits, UuidDigits);
    var name := FileNamePrefix + middle + FileNameSuffix;
    assert name[|FileNamePrefix|..|name| - |FileNameSuffix|] == middle;
    assert middle <= digits by {
      assert middle == digits[..|middle|];
    }
    assert forall i :: |FileNamePrefix| <= i < |name| - |FileNameSuffix| ==> name[i] == middle[i - |FileNamePrefix|];
    name
  }

  /** Joins the output directory and the file name with the POSIX separator. */
  function JoinPath(dir: string, name: string): string {
    dir + "/" + name
  }

  /** A genuine uuid1 integer, whose version field makes it at least 2^76,
      has more than eight digits, so its file name keeps exactly eight. */
  lemma FileNameShape(uuidInt: nat)
    requires IsUuid1Int(uuidInt)
    ensures |FileName(uuidInt)| == |FileNamePrefix| + UuidDigits + |FileNameSuffix|
  {
    var name := FileName(uuidInt);
    var middle := Take(DecimalString(uuidInt), UuidDigits);
    assert name == FileNamePrefix + middle + FileNameSuffix;
    assert uuidInt >= VersionUnit;
    assert Pow10(7) == 10_000_000;
    DecimalStringLength(uuidInt, 7, Pow10(7));
  }

  /** `generate_candidates_csv_file`: writes the header and one row per
      candidate, with its id, name, email, skill names in order and experience,
      to a fresh file under the output directory, and returns its path. The
      uuid1 integer is a parameter; the file names it yields are not claimed
      to be unique. */
  method GenerateCandidatesCsvFile(db: Db, uuidInt: nat) returns (path: string, rows: seq<Row>)
    ensures path == JoinPath(OutputDir, FileName(uuidInt))
    ensures path[..|OutputDir| + 1] == OutputDir + "/"
    ensures path[|OutputDir| + 1..|OutputDir| + 1 + |FileNamePrefix|] == FileNamePrefix
    ensures rows == ReportRows(db)
    ensures |rows| == |db.candidates| + 1 && rows[0] == Header
    ensures forall i :: 0 <= i < |db.candidates| ==>
      var c := db.candidates[i];
      && rows[i + 1][0] == Field(c.id) && rows[i + 1][1] == Field(c.name) && rows[i + 1][2] == Field(c.email)
      && rows[i + 1][3] == SkillNames(SkillNamesOf(db, c.id))
      && rows[i + 1][4] == Records(ExperienceOf(db, c.id))
  {
    var fileName := FileName(uuidInt);
    path := JoinPath(OutputDir, fileName);
    assert path == (OutputDir + "/") + FileNamePrefix + (Take(DecimalString(uuidInt), UuidDigits) + FileNameSuffix);
    rows := ReportRowsOf(db);
    ReportRowCells(db);
  }

  /** The header, then one row per candidate in query order, built as the
      task's loop writes them. */
  method ReportRowsOf(db: Db) returns (rows: seq<Row>)
    ensures rows == ReportRows(db)
  {
    var candidates := db.candidates;
    rows := [Header];
    var i := 0;
    while i < |candidates|
      invariant 0 <= i <= |candidates|
      invariant |rows| == i + 1 && rows[0] == Header
      invariant forall k :: 0 <= k < i ==> rows[k + 1] == CandidateRow(db, candidates[k])
    {
      rows := rows + [CandidateRow(db, candidates[i])];
      i := i + 1;
    }
  }

  /** The cells of each candidate's report row. */
  lemma ReportRowCells(db: Db)
    ensures |ReportRows(db)| == |db.candidates| + 1 && ReportRows(db)[0] == Header
    ensures forall i :: 0 <= i < |db.candidates| ==>
      var c := db.candidates[i];
      && ReportRows(db)[i + 1][0] == Field(c.id) && ReportRows(db)[i + 1][1] == Field(c.name)
      && ReportRows(db)[i + 1][2] == Field(c.email)
      && ReportRows(db)[i + 1][3] == SkillNames(SkillNamesOf(db, c.id))
      && ReportRows(db)[i + 1][4] == Records(ExperienceOf(db, c.id))
  {
  }

  /** The broker's queue of report jobs not yet executed. */
  datatype ReportQueue = ReportQueue(pending: nat)

  /** Adding a candidate before a job executes adds one row to its report,
      last, for that candidate: the report reflects the store at execution
      time, not at dispatch time. */
  lemma ReportFollowsExecutionTime(db: Db, after: Db, c: Candidate)
    requires after.candidates == db.candidates + [c]
    requires after.skills == db.skills && after.experience == db.experience
    ensures |ReportRows(after)| == |ReportRows(db)| + 1
    ensures ReportRows(after)[|ReportRows(db)|] == CandidateRow(after, c)
    ensures forall i :: 0 <= i < |ReportRows(db)| ==> ReportRows(after)[i] == ReportRows(db)[i]
  {
    forall i | 1 <= i < |ReportRows(db)|
      ensures ReportRows(after)[i] == ReportRows(db)[i]
    {
      assert SkillsOf(after, db.candidates[i - 1].id) == SkillsOf(db, db.candidates[i - 1].id);
    }
  }
}

=== FILE: user_service.dfy ===
/** Registration and login. */
module UserService {
  import opened Outcomes
  import opened Jwt
  import Bcrypt
  import opened Store
  import opened Authentication

  /** The request body of both endpoints. */
  datatype UserBody = UserBody(email: string, password: string)

  /** The response of both endpoints. */
  datatype BearerToken = BearerToken(tokenType: string, accessToken: Token)

  const EmailTakenDetail := Literal("email already taken.")

  /** `register`: refuses an email some user already has; otherwise stores one
      new user holding the digest of the password (drawn with `salt`) under the
      fresh uuid `id`, and answers a bearer token whose `email` claim is the
      registered email. The uuid is a parameter; a collision, which the
      source does not handle, surfaces from the commit as a server error. */
  function Register(db: Db, body: UserBody, id: Id, salt: Bcrypt.Salt, now: int, settings: Settings)
    : (r: Result<(Db, BearerToken), HttpError>)
    ensures (exists u :: u in db.users && u.email == body.email) ==> r == Err(BadRequest(EmailTakenDetail))
    ensures r.Ok? <==>
      (forall u :: u in db.users ==> u.email != body.email && u.id != id)
    ensures r.Ok? ==>
      var (after, answer) := r.value;
      && after.users == db.users + [User(id, body.email, GetPasswordHash(body.password, salt))]
      && VerifyPassword(body.password, after.users[|db.users|].password)
      && after.candidates == db.candidates && after.skills == db.skills
      && after.experience == db.experience && after.nextSkillId == db.nextSkillId
      && answer.tokenType == "bearer"
      && answer.accessToken.Compact?
      && EmailClaim in answer.accessToken.payload && answer.accessToken.payload[EmailClaim] == Text(body.email)
      && ExpClaim in answer.accessToken.payload && answer.accessToken.payload[ExpClaim] == Number(now + DefaultExpiresMinutes * SecondsPerMinute)
      && (forall t :: VerifyToken(answer.accessToken, t, settings).Ok? <==>
            t < now + DefaultExpiresMinutes * SecondsPerMinute && body.email != "")
    ensures (forall u :: u in db.users ==> u.email != body.email) && r.Err? ==> r.error == InternalServerError
    ensures Valid(db) && r.Ok? ==> Valid(r.value.0)
  {
    if UserByEmail(db, body.email).Some? then
      Err(BadRequest(EmailTakenDetail))
    else
      var hashPassword := GetPasswordHash(body.password, salt);
      var accessToken := CreateAccessToken(map[EmailClaim := Text(body.email)], now, settings);
      assert forall t :: VerifyToken(accessToken, t, settings).Ok? <==>
          t < now + DefaultExpiresMinutes * SecondsPerMinute && body.email != "" by {
        forall t
          ensures VerifyToken(accessToken, t, settings).Ok? <==>
            t < now + DefaultExpiresMinutes * SecondsPerMinute && body.email != ""
        {
          IssuedEmailTokenVerdict(body.email, now, settings, DefaultExpiresMinutes, t);
        }
      }
      var user := User(id, body.email, hashPassword);
      if exists u :: u in db.users && u.id == id then
        Err(InternalServerError)
      else
        var after := db.(users := db.users + [user]);
        assert Valid(db) ==> Valid(after) by {
          if Valid(db) {
            Seqs.AppendKeepsKeysDistinct(db.users, user, UserIdOf);
            Seqs.AppendKeepsKeysDistinct(db.users, user, UserEmailOf);
          }
        }
        Ok((after, BearerToken("bearer", accessToken)))
  }

  /** `login`: an unknown email and a wrong password fail alike, with the same
      401; otherwise answers a bearer token for the stored user's email. The
      store is only read. */
  function Login(db: Db, body: UserBody, now: int, settings: Settings): (r: Result<BearerToken, HttpError>)
    ensures r.Err? ==> r.error == Unauthorized(UnauthorizedMessage)
    ensures (forall u :: u in db.users ==> u.email != body.email) ==> r.Err?
    ensures Valid(db) ==>
      (r.Ok? <==> exists u :: u in db.users && u.email == body.email && VerifyPassword(body.password, u.password))
    ensures r.Ok? ==>
      && r.value.tokenType == "bearer"
      && r.value.accessToken.Compact?
      && EmailClaim in r.value.accessToken.payload && r.value.accessToken.payload[EmailClaim] == Text(body.email)
      && ExpClaim in r.value.accessToken.payload && r.value.accessToken.payload[ExpClaim] == Number(now + DefaultExpiresMinutes * SecondsPerMinute)
      && (forall t :: VerifyToken(r.value.accessToken, t, settings).Ok? <==>
            t < now + DefaultExpiresMinutes * SecondsPerMinute && body.email != "")
  {
    match UserByEmail(db, body.email)
    case None => Err(Unauthorized(UnauthorizedMessage))
    case Some(user) =>
      if !AuthenticateUser(db, user.email, body.password) then
        Err(Unauthorized(UnauthorizedMessage))
      else
        var accessToken := CreateAccessToken(map[EmailClaim := Text(user.email)], now, settings);
        assert forall t :: VerifyToken(accessToken, t, settings).Ok? <==>
            t < now + DefaultExpiresMinutes * SecondsPerMinute && body.email != "" by {
          forall t
            ensures VerifyToken(accessToken, t, settings).Ok? <==>
              t < now + DefaultExpiresMinutes * SecondsPerMinute && body.email != ""
          {
            IssuedEmailTokenVerdict(user.email, now, settings, DefaultExpiresMinutes, t);
          }
        }
        Ok(BearerToken("bearer", accessToken))
  }

  /** Logging in after registering succeeds with the registered password and
      fails, with the generic 401, with any other password. */
  lemma RegisterThenLogin(db: Db, body: UserBody, id: Id, salt: Bcrypt.Salt, now: int, later: int,
                          settings: Settings, otherPassword: string)
    requires Valid(db)
    requires Register(db, body, id, salt, now, settings).Ok?
    requires otherPassword != body.password
    ensures var after := Register(db, body, id, salt, now, settings).value.0;
      && Login(after, body, later, settings).Ok?
      && Login(after, UserBody(body.email, otherPassword), later, settings) == Err(Unauthorized(UnauthorizedMessage))
  {
    var after := Register(db, body, id, salt, now, settings).value.0;
    var user := after.users[|db.users|];
    assert user in after.users;
    forall u | u in after.users && u.email == body.email
      ensures u == user
    {
      Seqs.SameKeySameMember(after.users, UserEmailOf, u, user);
    }
  }

  /** A second registration with the same email is refused and stores nothing. */
  lemma RegisterTwiceRefused(db: Db, body: UserBody, id: Id, id2: Id, salt: Bcrypt.Salt, salt2: Bcrypt.Salt,
                             now: int, settings: Settings, password2: string)
    requires Register(db, body, id, salt, now, settings).Ok?
    ensures var after := Register(db, body, id, salt, now, settings).value.0;
      Register(after, UserBody(body.email, password2), id2, salt2, now, settings) == Err(BadRequest(EmailTakenDetail))
  {
    var after := Register(db, body, id, salt, now, settings).value.0;
    assert after.users[|db.users|] in after.users;
  }
}
